=== FILE: README.md ===
# SmartCradle core, modelled in Dafny

SmartCradle is a baby-cradle monitor. A cradle device posts sensor samples, with per-sensor
and overall anomaly flags, to a Node backend. The backend stores them and raises a "High
Anomaly Detected" notification when a cradle reports six anomalous samples in a row. A React
client lists the cradles, shows live status, history and analytics, and polls for
notifications.

This project models that core as pure Dafny functions over an immutable database value
(`Tables.Db`). The database holds three tables: cradles, samples and notifications. Each
table is a sequence in insertion order, and "newest first" is its reverse. The model proves
what the handlers and pages promise:

- **The anomaly rule** (`Streak`, `Ingest`). The handler reads back the newest seven
  `anomaly_overall` flags. It notifies when the six newest are anomalous and the seventh is
  missing or normal. Over a cradle's whole stream of samples this means:
  - it notifies exactly when the anomalous run ending at the new sample is six long;
  - it notifies at most once per run;
  - every run that reaches six notifies at its sixth sample;
  - over any sequence of ingests, the number of new notifications equals the number of such
    firings.
- **Ingestion failures.** A failure at any of the handler's four database steps is passed in
  as a parameter. A unique violation (`23505`) answers 409 "Duplicate timestamp". Any other
  failure answers 500 with the error's message. A failure after the sample insert still keeps
  the sample, because nothing is wrapped in a transaction.
- **The cradle and notification controllers.** Each has its owner filter, error statuses and
  messages. Deleting a cradle cascades to its samples and notifications. Marking read is
  idempotent.
- **The client pages.** The model covers:
  - uptime formatting and the offline threshold;
  - motion-state chart values and their labels;
  - anomaly counts and the pie-chart filter;
  - history badges and live prepending;
  - the dashboard's three-state badge;
  - local read-flag updates, which agree with a re-fetch from the server;
  - the navbar's unread dot and "new notification" toast;
  - the security popup's OTP, password and deletion flow.

A few behaviours of the code are worth knowing and are modelled as written:

- `getLatestStatus` and `getHistory` look a cradle up by id alone, with no owner check.
- The history badges ignore `anomaly_overall`. A row flagged only overall shows "Normal"
  (`HistoryPage.OverallOnlyRowShowsNormal`).
- `getNotifications` uses an inner join, so notifications of a deleted cradle are not listed.
- A failed notification insert is not swallowed. It reaches the shared `catch` and answers
  500, even though the sample is stored.
- The notification's text is fixed. No socket push or email is sent when the rule fires.
- The server emits no `new_data` event anywhere. The History page's live prepend is
  therefore modelled only as a list operation.
- Not every modelled handler is routed. `backend/server.js` mounts only the auth, ingest and
  cradle routers, and `backend/routes/cradle.routes.js` exposes only `getCradles`,
  `getLatestStatus` and `getHistory`. So `createCradle`, `updateCradle`, `deleteCradle`,
  `getStatusByDeviceToken` and the whole notification controller cannot be reached. They are
  modelled as written. The lemmas that combine them with other requests assume their routes
  are mounted:
  - `CradleApi.CreatedCradleIsListed`, `CradleApi.DeletedCradleIsNotListed`,
    `CradleApi.UpdateIdempotent` and `DashboardPage.CreatedCradleLabels` assume the cradle
    write routes;
  - `Navbar.AnomalyAlertIsToasted` and the notification page's agreement with the server
    (`NotificationsPage.LocalMarkMatchesServer`, `NotificationsPage.LocalMarkAllMatchesServer`)
    assume the notification routes.
- The password form's `required` and `minLength={6}` attributes stop the browser from
  submitting a short password, so the handler's own length message never appears
  (`SecurityPopup.LengthMessageNeverShown`).
- Reopening the security popup resets the step, the OTP, the token, the messages and the
  password fields. It keeps the active tab and the `loading` flag.

## Model

| member | source | states |
|---|---|---|
| Streak.TransitionDetected | backend/controllers/ingest.controller.js:50-54 | too short a window, or a normal flag among the newest six, never fires; seven anomalies in a row never fire; six anomalies followed by a missing or normal seventh always fire |
| Streak.RunLength | backend/controllers/ingest.controller.js:31-34 | the length of the anomalous run ending at the newest sample never exceeds the stream length |
| Streak.RunLengthAtLeast | backend/controllers/ingest.controller.js:31-34 | the run is at least k long exactly when the newest k flags are all anomalous |
| Streak.FiresIffRunOfSix | backend/controllers/ingest.controller.js:36-56 | the rule on the newest-seven window fires exactly when the run ending at the new sample is six long |
| Streak.AtMostOncePerRun | backend/controllers/ingest.controller.js:34 | two ingests inside one unbroken anomalous run never both notify |
| Streak.LongRunFiresAtSixth | backend/controllers/ingest.controller.js:31-33 | every run that reaches six anomalies notifies, at its sixth sample |
| Streak.FireTraceMeaning | backend/controllers/ingest.controller.js:31-56 | the decision after each ingested sample is to notify exactly when the anomalous run ending at that sample is six long |
| Streak.SixthAnomalyFiresOnce | backend/scripts/verify-notification.js:20-32 | five anomalies do not notify, the sixth does, the seventh does not; after a normal sample the count restarts |
| Tables.SamplesOf | backend/controllers/ingest.controller.js:38-44 | a cradle's samples are exactly the table rows carrying its id |
| Tables.SamplesOfAppend | backend/controllers/ingest.controller.js:8-28 | storing a sample of this cradle appends it to the cradle's samples; a sample of another cradle leaves them unchanged |
| Tables.LatestSample | backend/controllers/cradle.controller.js:24-30 | the head of the cradle's newest-first samples; absent exactly when the cradle has no samples |
| Tables.LatestSampleIsNewest | backend/controllers/cradle.controller.js:24-30 | no sample of that cradle was stored after the one returned |
| Tables.FindCradle | backend/controllers/ingest.controller.js:58 | finds a cradle with that id, and the first such one; absent exactly when no cradle has that id |
| Tables.FindByDeviceKey | backend/middleware/authDevice.js:10-12 | finds the first cradle with that device key; absent exactly when no cradle has it |
| DeviceAuth.AuthDevice | backend/middleware/authDevice.js:3-21 | a missing or empty key gives 401 "Device key missing"; an unknown key gives 401 "Invalid device key"; otherwise the request proceeds with the matching cradle's id and owner |
| Ingest.CatchResponse | backend/controllers/ingest.controller.js:78-84 | 409 "Duplicate timestamp" exactly for code 23505; otherwise 500 with the error's message |
| Ingest.AnomalyNotification | backend/controllers/ingest.controller.js:61-72 | the alert belongs to the cradle's owner and cradle, is unread, and has the type ANOMALY, the key OVERALL and the title "High Anomaly Detected" |
| Ingest.HistoryWindowIsLatestWindow | backend/controllers/ingest.controller.js:38-44 | the rows read back after the insert are the newest seven flags of the cradle's stream |
| Ingest.IngestLog | backend/controllers/ingest.controller.js:3-85 | a failed insert changes nothing; otherwise the sample is appended. Notifications are unchanged, or exactly one alert is appended, only for an anomalous sample that completes the window rule on an existing cradle. No failures means 200 "ok"; any other answer is the catch of one of the failures |
| Ingest.NormalSampleSkipsHistory | backend/controllers/ingest.controller.js:36 | a normal sample never reaches the history read, the cradle lookup or the notification insert, so failures there cannot matter |
| Ingest.LateFailureKeepsSample | backend/controllers/ingest.controller.js:7-84 | there is no transaction: after a successful insert the sample stays, and a failure of the history read, the cradle read or the notification insert answers through the shared catch (409 for 23505, 500 with the message otherwise) with no notification added |
| Ingest.IngestNotifiesIffRunOfSix | backend/controllers/ingest.controller.js:36-75 | with no failures and an existing cradle, an alert is inserted exactly when the cradle's run is six long, and it is that alert |
| Ingest.IngestRequest | backend/middleware/authDevice.js:3-21 | a rejected device changes nothing and answers 401; an accepted one runs the handler for its own cradle |
| Ingest.IngestStep | backend/controllers/ingest.controller.js:8-28 | an ingest with no failures keeps the cradles and appends exactly its sample |
| Ingest.IngestStepCount | backend/controllers/ingest.controller.js:36-75 | one ingest with no failures adds one notification when the cradle's stream fires at the new sample, and none otherwise |
| Tables.SamplesOfConcat | backend/controllers/ingest.controller.js:38-44 | a cradle's samples after a batch of inserts are its earlier samples followed by the batch's samples for that cradle |
| Ingest.IngestMany | backend/controllers/ingest.controller.js:8-75 | a sequence of successful ingests appends all their samples in order and keeps the cradles |
| Ingest.IngestManyCountsFires | backend/controllers/ingest.controller.js:36-75 | over any sequence of ingests for one cradle, the alerts added equal the number of steps at which that cradle's run reached exactly six |
| CradleApi.LatestOverall | backend/controllers/cradle.controller.js:6-16 | the overall flag of the head of the cradle's newest-first samples; null exactly when the cradle has no samples |
| CradleApi.OwnedCradles | backend/controllers/cradle.controller.js:15 | exactly the requester's cradles, each once, in table order |
| CradleApi.GetCradles | backend/controllers/cradle.controller.js:3-18 | one card per owned cradle, in table order and without repeats, each with its newest sample's flag |
| CradleApi.GetLatestStatus | backend/controllers/cradle.controller.js:20-38 | 404 "Cradle not found" exactly when no cradle has the id (no owner check); otherwise that cradle with its newest sample |
| CradleApi.GetHistory | backend/controllers/cradle.controller.js:40-67 | the newest `limit` samples (50 when absent), newest first, all of that cradle; a negative limit is a database error |
| CradleApi.OrNull | backend/controllers/cradle.controller.js:78 | an empty or missing optional text is stored as null, and any other text as given |
| CradleApi.CreateCradle | backend/controllers/cradle.controller.js:69-83 | a missing name or device key gives 400; otherwise 201 with a new row appended for the requester, holding the given fields and null for empty optional ones |
| CradleApi.FirstOwnedMatch | backend/controllers/cradle.controller.js:93-100 | the row returned is the requester's cradle with that id |
| CradleApi.UpdateCradle | backend/controllers/cradle.controller.js:85-107 | a missing name gives 400; a cradle that is not the requester's gives 404; otherwise 200 with the first matching row as updated; every matching row gets the new name, baby name and location (empty ones as null) and keeps its id, owner and device key; no other row changes |
| CradleApi.KeepCradles | backend/controllers/cradle.controller.js:113-117 | the cradle table minus the requester's row with that id, the rest in their original order |
| CradleApi.KeepSamples | backend/controllers/cradle.controller.js:112 | the cascade removes exactly the deleted cradle's samples, the rest in their original order |
| CradleApi.KeepSamplesKeepsStreams | backend/controllers/cradle.controller.js:112 | every other cradle's samples are exactly as before, so its newest sample and anomaly run are unaffected |
| CradleApi.KeepNotifications | backend/controllers/cradle.controller.js:112 | the cascade removes exactly the deleted cradle's notifications, the rest in their original order |
| CradleApi.DeleteCradle | backend/controllers/cradle.controller.js:109-125 | 404 unless the requester owns the cradle; otherwise the table shrinks by exactly the matching rows, the cascade removes its samples and notifications, all remaining rows keep their order, every other cradle keeps its samples, and the answer is "Cradle deleted successfully" with the id |
| CradleApi.KeptIsSmaller | backend/controllers/cradle.controller.js:113-124 | a successful delete removes at least one row |
| CradleApi.GetStatusByDeviceToken | backend/controllers/cradle.controller.js:127-154 | a missing token gives 401 "Missing device token"; an unknown one gives 404 "Invalid token or cradle not found"; a known one always gives 200 with the first cradle holding that key and its newest sample |
| CradleApi.CreatedCradleIsListed | backend/controllers/cradle.controller.js:69-83 | a created cradle appears in its owner's list and in no one else's |
| CradleApi.DeletedCradleIsNotListed | backend/controllers/cradle.controller.js:109-125 | after a delete, the owner's list holds no cradle with that id |
| CradleApi.UpdateIdempotent | backend/controllers/cradle.controller.js:85-107 | repeating an update leaves the table as the first update left it |
| NotificationApi.Visible | backend/controllers/notification.controller.js:5-12 | the joined list is never longer than the table |
| NotificationApi.VisibleSound | backend/controllers/notification.controller.js:5-12 | every listed row is the requester's, its cradle exists, and it carries that cradle's name |
| NotificationApi.VisibleComplete | backend/controllers/notification.controller.js:5-12 | every row of the requester whose cradle exists is listed with that cradle's name |
| NotificationApi.VisibleAppend | backend/controllers/notification.controller.js:5-12 | a row appended to the table is listed last when it is the requester's and its cradle exists |
| NotificationApi.GetNotifications | backend/controllers/notification.controller.js:3-17 | a database failure gives 500 with its message; otherwise the requester's joined rows, newest first, at most 50 |
| NotificationApi.MarkRowRead | backend/controllers/notification.controller.js:22-27 | sets the read flag on the requester's rows with that id and on no others |
| NotificationApi.MarkUserRead | backend/controllers/notification.controller.js:41-45 | sets the read flag on the requester's unread rows and on no others |
| NotificationApi.FirstOwned | backend/controllers/notification.controller.js:22-27 | the row returned is the requester's, with that id |
| NotificationApi.MarkAsRead | backend/controllers/notification.controller.js:19-37 | a failure gives 500; a notification that is not the requester's gives 404 "Notification not found or unauthorized"; otherwise 200: exactly the requester's rows with that id become read, and the first of them is returned |
| NotificationApi.MarkAllAsRead | backend/controllers/notification.controller.js:39-50 | afterwards the requester has nothing unread and other users' rows are untouched; the answer is "ok", or 500 on failure |
| NotificationApi.MarkAllAsReadIdempotent | backend/controllers/notification.controller.js:39-50 | marking all read twice equals marking once |
| NotificationsPage.MarkViewRead | client/src/pages/Notifications.jsx:28-30 | keeps the list's length; the items with that id become read and the rest are unchanged |
| NotificationsPage.MarkAllViewsRead | client/src/pages/Notifications.jsx:39 | keeps the list's length; every item becomes read and nothing else changes |
| NotificationsPage.ClientMarkAsRead | client/src/pages/Notifications.jsx:25-34 | the list is unchanged when the server call throws |
| NotificationsPage.ClientMarkAllRead | client/src/pages/Notifications.jsx:36-43 | the list is unchanged when the server call throws |
| NotificationsPage.ShowMarkAll | client/src/pages/Notifications.jsx:54 | "Mark all as read" shows when some item is unread; NotificationsPage.MarkAllViewsReadSettles shows it disappears after marking all |
| NotificationsPage.MarkAllViewsReadSettles | client/src/pages/Notifications.jsx:54 | after marking all read the button disappears, and marking again changes nothing |
| NotificationsPage.VisibleAfterMarkRowRead | client/src/pages/Notifications.jsx:28-30 | marking a row read in the table and then joining equals joining and then marking the item read |
| NotificationsPage.VisibleAfterMarkUserRead | client/src/pages/Notifications.jsx:39 | the same commutation for marking all |
| NotificationsPage.LocalMarkMatchesServer | client/src/pages/Notifications.jsx:25-34 | the page's local update after marking one item agrees with what a re-fetch would show |
| NotificationsPage.LocalMarkAllMatchesServer | client/src/pages/Notifications.jsx:36-43 | the page's local update after marking all agrees with what a re-fetch would show |
| Navbar.UnreadCount | client/src/components/Navbar.jsx:23 | never above the list length; zero exactly when everything is read; the full length exactly when nothing is |
| Navbar.UnreadCountConcat | client/src/components/Navbar.jsx:23 | the count of a concatenation is the sum of the counts, and one item counts one exactly when it is unread, so the count is the number of unread items |
| Navbar.Poll | client/src/components/Navbar.jsx:18-43 | a failed fetch changes nothing; a successful one sets the unread count. A non-empty list records its head's id. It toasts exactly when an id was seen before and the head differs, showing the message or "New Notification" |
| Navbar.BellDot | client/src/components/Navbar.jsx:65 | the dot shows when the remembered unread count is positive; Navbar.BellDotIffUnread ties it to the fetched list |
| Navbar.BellDotIffUnread | client/src/components/Navbar.jsx:65 | after a poll the bell dot shows exactly when the list has an unread item |
| Navbar.FirstPollNeverToasts | client/src/components/Navbar.jsx:16-31 | the first poll only records where the list starts |
| Navbar.RepeatedPollIsQuiet | client/src/components/Navbar.jsx:31-38 | fetching the same list again neither toasts nor changes the state |
| Navbar.PollAll | client/src/components/Navbar.jsx:45-46 | a run of polls raises at most one toast per poll |
| Navbar.PollAllAppend | client/src/components/Navbar.jsx:45-46 | one more poll continues from the state the earlier polls left |
| Navbar.PollAllTracksNewest | client/src/components/Navbar.jsx:38 | after any polls, the remembered id is the head of the last non-empty list fetched |
| Navbar.AnomalyAlertIsToasted | client/src/components/Navbar.jsx:27-37 | when an ingest completes a run of six, the owner's next poll toasts the new alert's message (assuming the notification routes are mounted, which backend/server.js does not do) |
| CradlePage.JsRem | client/src/pages/Cradle.jsx:68-69 | JavaScript's remainder: the Euclidean one for non-negative numbers, non-positive for negative ones |
| CradlePage.UptimeParts | client/src/pages/Cradle.jsx:67-69 | for a non-negative uptime the days, hours under 24 and minutes under 60 rebuild the uptime to within a minute; all three are non-positive for a negative uptime |
| CradlePage.FormatUptime | client/src/pages/Cradle.jsx:65-76 | a missing or zero uptime reads "0s"; a negative one, or one under a minute, reads as its seconds |
| CradlePage.FormatUptimeOfParts | client/src/pages/Cradle.jsx:71-75 | an uptime with some non-zero part reads as its non-zero parts joined by spaces |
| CradlePage.FormatUptimeOfDecomposition | client/src/pages/Cradle.jsx:65-76 | d days, h hours, m minutes and s seconds (at least one minute) read as "Xd Yh Zm" with the zero parts and the seconds dropped |
| CradlePage.CreatedAtMs | client/src/pages/Cradle.jsx:78 | a null `created_at` reads as the epoch; any other as its own time |
| CradlePage.IsOffline | client/src/pages/Cradle.jsx:78 | offline when more than 60 000 ms have passed since `created_at`; CradlePage.OfflineFollowsNewestSample ties it to the server's reply |
| CradlePage.LatestCreatedAt | backend/controllers/cradle.controller.js:22-30 | the reply's `created_at` is null exactly when the cradle has no sample, and otherwise is the newest sample's time |
| CradlePage.OfflineFollowsNewestSample | client/src/pages/Cradle.jsx:78 | a cradle that never sent a sample is always shown offline (after the first minute of the epoch); otherwise it is offline exactly when its newest sample is over a minute old |
| AnalyticsPage.MotionValue | client/src/pages/Analytics.jsx:57-65 | idle, normal, shake and tilt in any letter case chart as 0 to 3; anything else, or nothing, charts as 0 |
| AnalyticsPage.MotionStateFormatter | client/src/pages/Analytics.jsx:144-147 | values 0 to 3 show Idle, Normal, Shake or Tilt; any other value shows nothing |
| AnalyticsPage.MotionValueOfLabel | client/src/pages/Analytics.jsx:57-65 | each label charts back at its own value |
| AnalyticsPage.LabelOfMotionValue | client/src/pages/Analytics.jsx:144-147 | a known state in any letter case is labelled with its capitalised name |
| AnalyticsPage.ProcessHistory | client/src/pages/Analytics.jsx:68-73 | the chart series is the history reversed, each point with its motion value |
| AnalyticsPage.ChartSeriesIsOldestFirst | client/src/pages/Analytics.jsx:52 | the series is the cradle's newest samples (at most 200) in the order they were stored |
| AnalyticsPage.CountFlag | client/src/pages/Analytics.jsx:76-82 | a count never exceeds the number of rows; its value is fixed by AnalyticsPage.CountFlagConcat and AnalyticsPage.CountFlagZero |
| AnalyticsPage.CountFlagConcat | client/src/pages/Analytics.jsx:76-82 | the count over two lists is the sum of their counts |
| AnalyticsPage.CountFlagZero | client/src/pages/Analytics.jsx:76-82 | a count is zero exactly when no row carries that flag |
| AnalyticsPage.CountFlagReverse | client/src/pages/Analytics.jsx:73-82 | the counts do not depend on row order |
| AnalyticsPage.ChartCountsMatchHistory | client/src/pages/Analytics.jsx:73-82 | counting over the reversed chart series equals counting over the fetched history |
| AnalyticsPage.StatsOver | client/src/pages/Analytics.jsx:84-89 | keeps exactly the categories with a positive count, each with its count, in list order |
| AnalyticsPage.AnomalyStats | client/src/pages/Analytics.jsx:84-89 | a category appears exactly when its count is positive, with that count, in the order Temperature, Humidity, Noise, Motion |
| HistoryPage.AnomalyBadges | client/src/pages/History.jsx:80-99 | one badge per raised sensor flag, in the order Temp, Hum, Motion, Noise; the single "Normal" badge exactly when no sensor flag is raised |
| HistoryPage.OverallOnlyRowShowsNormal | client/src/pages/History.jsx:80-89 | a row flagged only overall is badged "Normal" |
| HistoryPage.PrependNewData | client/src/pages/History.jsx:54-59 | the new row comes first and the previous rows follow unchanged |
| HistoryPage.PrependMatchesNewestFirst | client/src/pages/History.jsx:54-59 | prepending a newly stored row to the newest n rows gives the newest n+1 rows of the table |
| HistoryPage.UptimeMinutes | client/src/pages/History.jsx:178 | whole minutes rounded down: m minutes is at most the uptime, which is under m+1 minutes |
| DashboardPage.StatusText | client/src/pages/Dashboard.jsx:62-71 | each status has its own badge text: "No Data", "Normal" or "Attention Needed" |
| DashboardPage.LocationLabel | client/src/pages/Dashboard.jsx:86 | an empty or missing location shows "Unknown Location"; any other shows as entered |
| DashboardPage.BabyNameLabel | client/src/pages/Dashboard.jsx:100 | an empty or missing baby name shows "Not Set"; any other shows as entered |
| DashboardPage.Classify | client/src/pages/Dashboard.jsx:62-71 | false is "Normal", true is "Attention Needed", and null is "No Data", each both ways |
| DashboardPage.CardStatusFollowsNewestSample | client/src/pages/Dashboard.jsx:57-71 | a card shows "No Data" exactly when its cradle has no samples; otherwise its newest sample decides |
| DashboardPage.IngestSetsCardStatus | client/src/pages/Dashboard.jsx:62-71 | right after a sample is stored, the owner's card shows that sample's status |
| DashboardPage.CreatedCradleLabels | client/src/pages/Dashboard.jsx:86-100 | a cradle created with an empty location or baby name shows "Unknown Location" or "Not Set"; otherwise it shows what was entered |
| SecurityPopup.Open | client/src/components/SecurityPopup.jsx:26-36 | opening resets the step to VERIFY and clears the OTP, token, messages and password fields; the tab and the loading flag are kept |
| SecurityPopup.TypeOtp | client/src/components/SecurityPopup.jsx:163-172 | the OTP is the longest prefix of what was typed that fits in six UTF-16 code units; nothing else changes |
| SecurityPopup.PressSendOtp | client/src/components/SecurityPopup.jsx:40-44 | ignored while loading; otherwise starts loading, clears the error and sends the request |
| SecurityPopup.OtpSent | client/src/components/SecurityPopup.jsx:44-51 | success shows "OTP sent to" and the email; failure shows the error; the other message, the step, the token, the OTP, the tab and the password fields are kept; loading ends either way |
| SecurityPopup.SubmitOtp | client/src/components/SecurityPopup.jsx:54-62 | a verify request is sent exactly when the button is enabled (not loading, at least six code units), carrying the OTP |
| SecurityPopup.OtpVerified | client/src/components/SecurityPopup.jsx:63-70 | success moves to MANAGE with the returned token and clears the success message; failure stays put, keeps the token and the success message and shows the error; the OTP, tab and password fields are kept |
| SecurityPopup.SelectTab | client/src/components/SecurityPopup.jsx:193-199 | switching tabs clears both messages |
| SecurityPopup.ValidatePassword | client/src/components/SecurityPopup.jsx:75-82 | accepted exactly when the two fields match and are at least six UTF-16 code units long; a mismatch is reported before the length |
| SecurityPopup.FormAccepts | client/src/components/SecurityPopup.jsx:216-238 | the browser submits the form only with a new password of at least six UTF-16 code units and a non-empty confirmation |
| SecurityPopup.SubmitPassword | client/src/components/SecurityPopup.jsx:73-90 | a change request is sent exactly when not loading and the two fields match with at least six code units, carrying the password and the token; a form the browser refuses changes nothing; a mismatch only sets "Passwords do not match" |
| SecurityPopup.AstralPasswordIsLongEnough | client/src/components/SecurityPopup.jsx:216-224 | a password of three characters outside the Basic Multilingual Plane is six code units long, so the form accepts and sends it |
| SecurityPopup.LengthMessageNeverShown | client/src/components/SecurityPopup.jsx:79-82 | submitting the form never brings up the handler's length message, because the browser refuses short passwords first |
| SecurityPopup.PasswordChanged | client/src/components/SecurityPopup.jsx:91-100 | success shows the re-login message; failure shows the error; the other message, the step, the token, the OTP, the tab and the password fields are kept; loading ends either way |
| SecurityPopup.PressDelete | client/src/components/SecurityPopup.jsx:103-115 | a delete request, carrying the token, is sent exactly when not loading and the confirmation is accepted |
| SecurityPopup.DeleteFailed | client/src/components/SecurityPopup.jsx:118-122 | a failed delete shows the error and ends loading; the success message, the step, the token, the OTP, the tab and the password fields are kept |
| SecurityPopup.Dispatch | client/src/components/SecurityPopup.jsx:145-273 | password changes are sent only from the MANAGE password tab, with matching passwords of at least six characters; deletes only from the MANAGE delete tab; OTP checks only from VERIFY with six characters; every request starts from a non-loading state |
| SecurityPopup.RunAppend | client/src/components/SecurityPopup.jsx:145-273 | one more event continues from the popup the earlier events left |
| SecurityPopup.DispatchStep | client/src/components/SecurityPopup.jsx:26-71 | only opening (to VERIFY) and a successful verification (to MANAGE) change the step |
| SecurityPopup.ManageIffUnlocked | client/src/components/SecurityPopup.jsx:26-71 | the MANAGE panel shows exactly when the latest successful verification is newer than the latest opening |
| SecurityPopup.OtpStaysShort | client/src/components/SecurityPopup.jsx:170 | the OTP never grows beyond six UTF-16 code units |
| SecurityPopup.RunRequestsValid | client/src/components/SecurityPopup.jsx:75-89 | over any run, no password change is sent with fewer than six characters and no OTP is checked with fewer than six |
| SecurityPopup.MismatchReportedFirst | client/src/components/SecurityPopup.jsx:75-82 | a short, mismatched password is reported as a mismatch |
| Text.ToLower | client/src/pages/Analytics.jsx:58 | same length; each character lower-cased |
| Text.JsLength | client/src/components/SecurityPopup.jsx:79 | a string's JavaScript length lies between its character count and twice that, and equals the character count when every character is in the Basic Multilingual Plane |
| Text.JsLengthConcat | client/src/components/SecurityPopup.jsx:79 | the JavaScript length of a concatenation is the sum of the lengths |
| Text.JsTruncate | client/src/components/SecurityPopup.jsx:170 | a prefix of the input that fits in the limit, and the longest one: one more character would exceed it |
| Text.OrElse | client/src/pages/Dashboard.jsx:86 | an empty or missing text gives the fallback; any other text is kept |
| Text.ParseNatToString | client/src/pages/Cradle.jsx:72-74 | the decimal text of an uptime part reads back as that number |

## Left out

- `CradleApi.GetCradles` lists the cradles in insertion order. Its SQL has no `ORDER BY`, so
  the database promises no order, and after an update a table scan may list that cradle after
  later ones. The model keeps updated rows in place and fixes one order.
- `Tables.Reading` stores the anomaly flags as booleans. `ingestLog` inserts the request's
  flags without validating them, so a device that posts `null` could store a null flag, which
  the dashboard would show as "No Data" although samples exist. The model assumes devices post
  booleans, as the dashboard's own comment does, so
  `DashboardPage.CardStatusFollowsNewestSample` holds only under that assumption.
- Sensor values are floating point: temperature, humidity, sound level, accelerations and
  confidences. They are not part of the model, because no decision in the core depends on
  them. Only the anomaly flags, the uptime and the motion state are modelled.
- SQL, the connection pool and `created_at` are not modelled. Timestamps are replaced by
  insertion order. `ORDER BY created_at DESC` is the reverse of the table. Two samples with
  the same timestamp are the unique violation, which reaches the handler only as a failure
  code.
- The database's own failures appear as optional error parameters to the ingest and
  notification handlers.
- `getCradles`, `getLatestStatus`, `createCradle`, `updateCradle`, `deleteCradle`,
  `getStatusByDeviceToken` and the `authDevice` middleware have no `catch`. Their database errors propagate to the framework,
  so the model does not give them a failure parameter.
- `GetHistory` models one such uncaught error, the negative limit (`NegativeLimit`). A
  non-numeric limit (`NaN`) and a fractional one are not modelled.
- Sockets (`webSocket.js`), email (`sendEmail.js`), user authentication, OTP generation and
  the auth controller are outside the core and are not modelled. The security popup's
  requests are modelled as values sent, and its responses as events.
- Concurrency is not modelled. Each handler is atomic, and the two-second logout timer after
  a password change is not modelled.
- Routing, styling and the remaining pages are not modelled: login, register, profile,
  sidebar, and the create and edit modals.
- `SecurityPopup.TypeOtp` keeps only whole characters. A browser enforcing `maxLength` may cut
  a surrogate pair in half, and a Dafny string cannot hold half a pair.
- `AnalyticsPage.MotionValue` and `Text.ToLower` lower-case only the ASCII letters A to Z.
  JavaScript's `toLowerCase` also folds other Unicode letters.
- `CradlePage.IsOffline` compares millisecond timestamps given as integers. Reading the
  clock and parsing dates are left out, and so is the "Last active … ago" text
  (`formatDistanceToNow`).
- The sample ids and notification ids that the database generates are parameters, for
  example `notificationId` and `newId`. `IngestMany` gives consecutive notification ids. The
  model does not check them for uniqueness.

=== FILE: analytics_page.dfy ===
/** The analytics page: motion states as chart values, the oldest-first chart series and the
    per-sensor anomaly counts. */
module AnalyticsPage {
  import opened Wrappers
  import opened Seqs
  import opened Text
  import opened Tables
  import opened CradleApi

  /** `getMotionValue`: idle, normal, shake and tilt (in any letter case) chart as 0 to 3;
      anything else, including a missing state, charts as 0. */
  function MotionValue(state: Option<string>): (v: nat)
    ensures v <= 3
    ensures state.Some? && ToLower(state.value) == "normal" ==> v == 1
    ensures state.Some? && ToLower(state.value) == "shake" ==> v == 2
    ensures state.Some? && ToLower(state.value) == "tilt" ==> v == 3
    ensures v != 0 ==> state.Some? && ToLower(state.value) in {"normal", "shake", "tilt"}
  {
    if state.None? then 0
    else
      var s := ToLower(state.value);
      if s == "idle" then 0
      else if s == "normal" then 1
      else if s == "shake" then 2
      else if s == "tilt" then 3
      else 0
  }

  /** The tick labels of the motion chart. */
  const MotionLabels: seq<string> := ["Idle", "Normal", "Shake", "Tilt"]

  /** `motionStateFormatter`: `states[value] || ''`. */
  function MotionStateFormatter(value: int): (shown: string)
    ensures 0 <= value < |MotionLabels| ==> shown == MotionLabels[value]
    ensures !(0 <= value < |MotionLabels|) ==> shown == ""
  {
    if 0 <= value < |MotionLabels| then MotionLabels[value] else ""
  }

  /** Every tick label charts back at its own position. */
  lemma MotionValueOfLabel(value: int)
    requires 0 <= value < |MotionLabels|
    ensures MotionValue(Some(MotionStateFormatter(value))) == value
  {
    var name := MotionLabels[value];
    var lower := ToLower(name);
    if value == 0 {
      assert lower == "idle";
    } else if value == 1 {
      assert lower == "normal";
    } else if value == 2 {
      assert lower == "shake";
    } else {
      assert lower == "tilt";
    }
  }

  /** A known state, written in any letter case, is labelled by its capitalised name. */
  lemma LabelOfMotionValue(state: string, value: nat)
    requires value < |MotionLabels|
    requires ToLower(state) == ToLower(MotionLabels[value])
    ensures MotionStateFormatter(MotionValue(Some(state))) == MotionLabels[value]
  {
    MotionValueOfLabel(value);
  }

  /** One point of the chart series: the history row and its motion value. */
  datatype ChartPoint = ChartPoint(row: SampleRow, motionValue: nat)

  /** `historyData.map(...).reverse()`: the newest-first history turned oldest-first. */
  function ProcessHistory(history: seq<SampleRow>): (r: seq<ChartPoint>)
    ensures |r| == |history|
    ensures forall k :: 0 <= k < |r| ==> r[k].row == history[|history| - 1 - k]
    ensures forall k :: 0 <= k < |r| ==> r[k].motionValue == MotionValue(r[k].row.reading.motionState)
  {
    var rows := Reverse(history);
    seq(|rows|, k requires 0 <= k < |rows| => ChartPoint(rows[k], MotionValue(rows[k].reading.motionState)))
  }

  /** The page asks for `history?limit=200`. */
  const ChartHistoryLimit: nat := 200

  /** The chart series is the cradle's newest (at most 200) samples, oldest first: a suffix of
      the table in insertion order. */
  lemma ChartSeriesIsOldestFirst(db: Db, cradleId: Id)
    ensures var history := GetHistory(db, cradleId, Some(ChartHistoryLimit));
            var all := SamplesOf(db.samples, cradleId);
            && history.Rows?
            && RowsOf(ProcessHistory(history.rows)) == all[|all| - Min(ChartHistoryLimit, |all|)..]
  {
    var history := GetHistory(db, cradleId, Some(ChartHistoryLimit));
    var all := SamplesOf(db.samples, cradleId);
    var m := Min(ChartHistoryLimit, |all|);
    var series := RowsOf(ProcessHistory(history.rows));
    assert forall k :: 0 <= k < m ==> series[k] == all[|all| - m + k];
  }

  function RowsOf(points: seq<ChartPoint>): (rows: seq<SampleRow>)
    ensures |rows| == |points|
    ensures forall k :: 0 <= k < |points| ==> rows[k] == points[k].row
  {
    seq(|points|, k requires 0 <= k < |points| => points[k].row)
  }

  /** The four sensor categories, in the order the stats list shows them. */
  datatype Category = Temperature | Humidity | Noise | Motion

  const CategoryOrder: seq<Category> := [Temperature, Humidity, Noise, Motion]

  function CategoryName(c: Category): string {
    match c
    case Temperature => "Temperature"
    case Humidity => "Humidity"
    case Noise => "Noise"
    case Motion => "Motion"
  }

  function Rank(c: Category): (n: nat)
    ensures n < |CategoryOrder| && CategoryOrder[n] == c
  {
    match c
    case Temperature => 0
    case Humidity => 1
    case Noise => 2
    case Motion => 3
  }

  predicate Flagged(f: Flags, c: Category) {
    match c
    case Temperature => f.temperature
    case Humidity => f.humidity
    case Noise => f.noise
    case Motion => f.motion
  }

  /** How many rows carry the anomaly flag of `c`. */
  function CountFlag(rows: seq<SampleRow>, c: Category): (n: nat)
    ensures n <= |rows|
  {
    if |rows| == 0 then 0
    else (if Flagged(rows[0].reading.anomaly, c) then 1 else 0) + CountFlag(rows[1..], c)
  }

  /** A category counts zero exactly when no row carries its flag. */
  lemma {:induction false} CountFlagZero(rows: seq<SampleRow>, c: Category)
    ensures CountFlag(rows, c) == 0 <==> forall k :: 0 <= k < |rows| ==> !Flagged(rows[k].reading.anomaly, c)
    decreases |rows|
  {
    if |rows| > 0 {
      CountFlagZero(rows[1..], c);
      assert forall k :: 1 <= k < |rows| ==> rows[1..][k - 1] == rows[k];
    }
  }

  lemma {:induction false} CountFlagConcat(a: seq<SampleRow>, b: seq<SampleRow>, c: Category)
    ensures CountFlag(a + b, c) == CountFlag(a, c) + CountFlag(b, c)
    decreases |a|
  {
    if |a| > 0 {
      assert (a + b)[1..] == a[1..] + b;
      CountFlagConcat(a[1..], b, c);
    } else {
      assert a + b == b;
    }
  }

  /** The counts do not depend on the order of the rows. */
  lemma {:induction false} CountFlagReverse(rows: seq<SampleRow>, c: Category)
    ensures CountFlag(Reverse(rows), c) == CountFlag(rows, c)
    decreases |rows|
  {
    if |rows| > 0 {
      var tail := rows[1..];
      assert Reverse(rows) == Reverse(tail) + [rows[0]];
      CountFlagConcat(Reverse(tail), [rows[0]], c);
      CountFlagReverse(tail, c);
    }
  }

  /** The counts over the chart series are the counts over the fetched history. */
  lemma ChartCountsMatchHistory(history: seq<SampleRow>, c: Category)
    ensures CountFlag(RowsOf(ProcessHistory(history)), c) == CountFlag(history, c)
  {
    assert RowsOf(ProcessHistory(history)) == Reverse(history);
    CountFlagReverse(history, c);
  }

  /** One slice of the anomaly pie chart. */
  datatype Stat = Stat(category: Category, value: nat)

  /** `[...].filter(item => item.value > 0)` over a list of categories in display order. */
  function StatsOver(rows: seq<SampleRow>, cats: seq<Category>): (r: seq<Stat>)
    requires forall i, j :: 0 <= i < j < |cats| ==> Rank(cats[i]) < Rank(cats[j])
    ensures |r| <= |cats|
    ensures forall k :: 0 <= k < |r| ==> r[k].value > 0 && r[k].value == CountFlag(rows, r[k].category)
                                         && r[k].category in cats
    ensures forall c :: c in cats && CountFlag(rows, c) > 0 ==> exists k :: 0 <= k < |r| && r[k].category == c
    ensures forall i, j :: 0 <= i < j < |r| ==> Rank(r[i].category) < Rank(r[j].category)
  {
    if |cats| == 0 then []
    else
      TailSorted(cats);
      var rest := StatsOver(rows, cats[1..]);
      var n := CountFlag(rows, cats[0]);
      if n > 0 then
        var r := [Stat(cats[0], n)] + rest;
        PrependKeepsValues(rows, cats, rest, r);
        PrependKeepsCoverage(rows, cats, rest, r);
        PrependKeepsOrder(cats, rest, r);
        r
      else
        SkipKeepsCoverage(rows, cats, rest);
        rest
  }

  lemma TailSorted(cats: seq<Category>)
    requires |cats| > 0
    requires forall i, j :: 0 <= i < j < |cats| ==> Rank(cats[i]) < Rank(cats[j])
    ensures forall i, j :: 0 <= i < j < |cats[1..]| ==> Rank(cats[1..][i]) < Rank(cats[1..][j])
  {
    forall i, j | 0 <= i < j < |cats[1..]|
      ensures Rank(cats[1..][i]) < Rank(cats[1..][j])
    {
      assert cats[1..][i] == cats[i + 1] && cats[1..][j] == cats[j + 1];
    }
  }

  lemma PrependKeepsValues(rows: seq<SampleRow>, cats: seq<Category>, rest: seq<Stat>, r: seq<Stat>)
    requires |cats| > 0 && CountFlag(rows, cats[0]) > 0 && r == [Stat(cats[0], CountFlag(rows, cats[0]))] + rest
    requires forall k :: 0 <= k < |rest| ==>
               (rest[k].value > 0 && rest[k].value == CountFlag(rows, rest[k].category) && rest[k].category in cats[1..])
    ensures forall k :: 0 <= k < |r| ==> r[k].value > 0 && r[k].value == CountFlag(rows, r[k].category)
                                         && r[k].category in cats
  {
    forall k | 0 <= k < |r|
      ensures r[k].value > 0 && r[k].value == CountFlag(rows, r[k].category) && r[k].category in cats
    {
      if k > 0 {
        assert r[k] == rest[k - 1];
        assert rest[k - 1].category in cats[1..];
      }
    }
  }

  lemma SkipKeepsCoverage(rows: seq<SampleRow>, cats: seq<Category>, rest: seq<Stat>)
    requires |cats| > 0 && CountFlag(rows, cats[0]) == 0
    requires forall c :: c in cats[1..] && CountFlag(rows, c) > 0 ==> exists k :: 0 <= k < |rest| && rest[k].category == c
    ensures forall c :: c in cats && CountFlag(rows, c) > 0 ==> exists k :: 0 <= k < |rest| && rest[k].category == c
  {
    assert forall c :: c in cats && CountFlag(rows, c) > 0 ==> c in cats[1..];
  }

  lemma PrependKeepsOrder(cats: seq<Category>, rest: seq<Stat>, r: seq<Stat>)
    requires |cats| > 0 && |r| == |rest| + 1 && r[0].category == cats[0] && r[1..] == rest
    requires forall i, j :: 0 <= i < j < |cats| ==> Rank(cats[i]) < Rank(cats[j])
    requires forall k :: 0 <= k < |rest| ==> rest[k].category in cats[1..]
    requires forall i, j :: 0 <= i < j < |rest| ==> Rank(rest[i].category) < Rank(rest[j].category)
    ensures forall i, j :: 0 <= i < j < |r| ==> Rank(r[i].category) < Rank(r[j].category)
  {
    RanksAfterHead(cats, rest);
    forall i, j | 0 <= i < j < |r|
      ensures Rank(r[i].category) < Rank(r[j].category)
    {
      assert r[j] == rest[j - 1];
      if i > 0 {
        assert r[i] == rest[i - 1];
      }
    }
  }

  lemma RanksAfterHead(cats: seq<Category>, rest: seq<Stat>)
    requires |cats| > 0
    requires forall i, j :: 0 <= i < j < |cats| ==> Rank(cats[i]) < Rank(cats[j])
    requires forall k :: 0 <= k < |rest| ==> rest[k].category in cats[1..]
    ensures forall k :: 0 <= k < |rest| ==> Rank(cats[0]) < Rank(rest[k].category)
  {
    forall k | 0 <= k < |rest|
      ensures Rank(cats[0]) < Rank(rest[k].category)
    {
      var j :| 0 <= j < |cats[1..]| && cats[1..][j] == rest[k].category;
      assert cats[j + 1] == rest[k].category;
    }
  }

  lemma PrependKeepsCoverage(rows: seq<SampleRow>, cats: seq<Category>, rest: seq<Stat>, r: seq<Stat>)
    requires |cats| > 0 && r == [Stat(cats[0], CountFlag(rows, cats[0]))] + rest
    requires forall c :: c in cats[1..] && CountFlag(rows, c) > 0 ==> exists k :: 0 <= k < |rest| && rest[k].category == c
    ensures forall c :: c in cats && CountFlag(rows, c) > 0 ==> exists k :: 0 <= k < |r| && r[k].category == c
  {
    forall c | c in cats && CountFlag(rows, c) > 0
      ensures exists k :: 0 <= k < |r| && r[k].category == c
    {
      if c == cats[0] {
        assert r[0].category == c;
      } else {
        assert c in cats[1..];
        var k :| 0 <= k < |rest| && rest[k].category == c;
        assert r[k + 1].category == c;
      }
    }
  }

  /** The fixed list Temperature, Humidity, Noise, Motion filtered to the counts that occurred. */
  function AnomalyStats(rows: seq<SampleRow>): (r: seq<Stat>)
    ensures forall k :: 0 <= k < |r| ==> r[k].value > 0 && r[k].value == CountFlag(rows, r[k].category)
    ensures forall c :: (exists k :: 0 <= k < |r| && r[k].category == c) <==> CountFlag(rows, c) > 0
    ensures forall i, j :: 0 <= i < j < |r| ==> Rank(r[i].category) < Rank(r[j].category)
    ensures |r| <= |CategoryOrder|
  {
    assert forall c :: c in CategoryOrder by {
      forall c
        ensures c in CategoryOrder
      {
        assert CategoryOrder[Rank(c)] == c;
      }
    }
    StatsOver(rows, CategoryOrder)
  }
}

=== FILE: cradle_api.dfy ===
/** The cradle controller: listing, history, create/update/delete filtered by owner, and the
    status lookup by device token. */
module CradleApi {
  import opened Wrappers
  import opened Seqs
  import opened Text
  import opened Tables
  import opened Http

  /** A row of `GET /api/cradles`: the cradle and its newest sample's `anomaly_overall`
      (`null` when the cradle has no samples, from the `LEFT JOIN LATERAL`). */
  datatype CradleSummary = CradleSummary(cradle: Cradle, anomalyOverall: Option<bool>)

  /** The newest `anomaly_overall` of a cradle, if it has any sample. */
  function LatestOverall(samples: seq<SampleRow>, cradleId: Id): (r: Option<bool>)
    ensures r.None? <==> forall x :: x in samples ==> x.cradleId != cradleId
    ensures r.Some? ==> exists x :: x in samples && x.cradleId == cradleId && r.value == x.reading.anomaly.overall
    ensures r.Some? ==> |NewestFirst(samples, cradleId)| > 0
                        && r.value == NewestFirst(samples, cradleId)[0].reading.anomaly.overall
  {
    match LatestSample(samples, cradleId)
    case None => None
    case Some(row) => Some(row.reading.anomaly.overall)
  }

  /** `WHERE c.user_id = $1`: the requester's cradles, in table order. */
  function OwnedCradles(cradles: seq<Cradle>, userId: Id): (r: seq<Cradle>)
    ensures |r| <= |cradles|
    ensures forall c :: c in r <==> c in cradles && c.userId == userId
    ensures Subsequence(r, cradles)
  {
    if |cradles| == 0 then []
    else
      var rest := OwnedCradles(cradles[1..], userId);
      assert cradles == [cradles[0]] + cradles[1..];
      if cradles[0].userId == userId then
        assert ([cradles[0]] + rest)[1..] == rest;
        [cradles[0]] + rest
      else
        SubsequenceSkip(rest, cradles[0], cradles[1..]);
        rest
  }

  /** `getCradles`: exactly the requester's cradles, each with its newest anomaly flag. */
  function GetCradles(db: Db, userId: Id): (r: seq<CradleSummary>)
    ensures forall k :: 0 <= k < |r| ==> r[k].cradle.userId == userId && r[k].cradle in db.cradles
    ensures forall k :: 0 <= k < |r| ==> r[k].anomalyOverall == LatestOverall(db.samples, r[k].cradle.id)
    ensures forall c :: c in db.cradles && c.userId == userId ==> exists k :: 0 <= k < |r| && r[k].cradle == c
    ensures |r| == |OwnedCradles(db.cradles, userId)|
    ensures forall k :: 0 <= k < |r| ==> r[k].cradle == OwnedCradles(db.cradles, userId)[k]
  {
    var owned := OwnedCradles(db.cradles, userId);
    var r := seq(|owned|, k requires 0 <= k < |owned| => CradleSummary(owned[k], LatestOverall(db.samples, owned[k].id)));
    assert forall c :: c in db.cradles && c.userId == userId ==> exists k :: 0 <= k < |r| && r[k].cradle == c by {
      forall c | c in db.cradles && c.userId == userId
        ensures exists k :: 0 <= k < |r| && r[k].cradle == c
      {
        var k :| 0 <= k < |owned| && owned[k] == c;
        assert r[k].cradle == c;
      }
    }
    r
  }

  /** A cradle's identity columns together with its newest sample (if any). */
  datatype StatusRow = StatusRow(cradle: Cradle, latest: Option<SampleRow>)

  /** `getLatestStatus`: looked up by id alone, with no owner filter. */
  function GetLatestStatus(db: Db, cradleId: Id): (r: Response<StatusRow>)
    ensures r.Refused? <==> forall k :: 0 <= k < |db.cradles| ==> db.cradles[k].id != cradleId
    ensures r.Refused? ==> r == Refused(404, "Cradle not found")
    ensures r.Reply? ==> r.status == 200 && r.body.cradle in db.cradles && r.body.cradle.id == cradleId
                         && r.body.latest == LatestSample(db.samples, cradleId)
  {
    match FindCradle(db.cradles, cradleId)
    case None => Refused(404, "Cradle not found")
    case Some(c) => Reply(200, StatusRow(c, LatestSample(db.samples, cradleId)))
  }

  /** `Number(req.query.limit || 50)`: a missing limit is 50. */
  const DefaultHistoryLimit: nat := 50

  /** The history query either returns rows or is rejected by the database (a negative
      `LIMIT`), which the handler does not catch. */
  datatype HistoryOutcome = Rows(rows: seq<SampleRow>) | NegativeLimit

  /** `getHistory`: the newest `limit` samples of the cradle, newest first. */
  function GetHistory(db: Db, cradleId: Id, limit: Option<int>): (r: HistoryOutcome)
    ensures r.NegativeLimit? <==> limit.Some? && limit.value < 0
    ensures r.Rows? ==> var n := limit.GetOr(DefaultHistoryLimit);
                        var all := SamplesOf(db.samples, cradleId);
                        && |r.rows| <= n
                        && |r.rows| == Min(n, |all|)
                        && forall k :: 0 <= k < |r.rows| ==> r.rows[k] == all[|all| - 1 - k]
    ensures r.Rows? ==> forall k :: 0 <= k < |r.rows| ==> r.rows[k].cradleId == cradleId
  {
    var n := limit.GetOr(DefaultHistoryLimit);
    if n < 0 then NegativeLimit else Rows(Take(NewestFirst(db.samples, cradleId), n))
  }

  /** `null` for a falsy optional string (`value || null`). */
  function OrNull(s: Option<string>): (r: Option<string>)
    ensures r.None? <==> !Truthy(s)
    ensures r.Some? ==> r == s
  {
    if Truthy(s) then s else None
  }

  /** The request body of create and update. */
  datatype CradleBody = CradleBody(name: Option<string>, babyName: Option<string>,
                                   location: Option<string>, deviceKey: Option<string>)

  datatype CradleWrite<T> = CradleWrite(db: Db, response: Response<T>)

  /** `createCradle`: name and device key are required; the owner is the requester. */
  function CreateCradle(db: Db, userId: Id, body: CradleBody, newId: Id): (r: CradleWrite<Cradle>)
    ensures !Truthy(body.name) || !Truthy(body.deviceKey) ==>
              r == CradleWrite(db, Refused(400, "cradle_name and device_key are required"))
    ensures Truthy(body.name) && Truthy(body.deviceKey) ==>
              && r.response.Reply? && r.response.status == 201
              && r.db == db.(cradles := db.cradles + [r.response.body])
              && r.response.body.id == newId && r.response.body.userId == userId
              && r.response.body.name == body.name.value && r.response.body.deviceKey == body.deviceKey.value
              && (r.response.body.babyName.None? <==> !Truthy(body.babyName))
              && (r.response.body.location.None? <==> !Truthy(body.location))
              && (Truthy(body.babyName) ==> r.response.body.babyName == body.babyName)
              && (Truthy(body.location) ==> r.response.body.location == body.location)
  {
    if !Truthy(body.name) || !Truthy(body.deviceKey) then
      CradleWrite(db, Refused(400, "cradle_name and device_key are required"))
    else
      var c := Cradle(newId, userId, body.name.value, OrNull(body.babyName), OrNull(body.location), body.deviceKey.value);
      CradleWrite(db.(cradles := db.cradles + [c]), Reply(201, c))
  }

  /** The `WHERE id = $1 AND user_id = $2` filter shared by update and delete. */
  predicate OwnedMatch(c: Cradle, cradleId: Id, userId: Id) {
    c.id == cradleId && c.userId == userId
  }

  predicate AnyOwnedMatch(cradles: seq<Cradle>, cradleId: Id, userId: Id) {
    exists k :: 0 <= k < |cradles| && OwnedMatch(cradles[k], cradleId, userId)
  }

  /** The first matching row, which `RETURNING *` hands back as `updatedCradle`. */
  function FirstOwnedMatch(cradles: seq<Cradle>, cradleId: Id, userId: Id): (k: nat)
    requires AnyOwnedMatch(cradles, cradleId, userId)
    ensures k < |cradles| && OwnedMatch(cradles[k], cradleId, userId)
  {
    if OwnedMatch(cradles[0], cradleId, userId) then 0
    else
      assert AnyOwnedMatch(cradles[1..], cradleId, userId) by {
        var j :| 0 <= j < |cradles| && OwnedMatch(cradles[j], cradleId, userId);
        assert cradles[1..][j - 1] == cradles[j];
      }
      1 + FirstOwnedMatch(cradles[1..], cradleId, userId)
  }

  function Renamed(c: Cradle, body: CradleBody): Cradle
    requires body.name.Some?
  {
    c.(name := body.name.value, babyName := OrNull(body.babyName), location := OrNull(body.location))
  }

  /** `updateCradle`: only the requester's row with that id changes. */
  function UpdateCradle(db: Db, userId: Id, cradleId: Id, body: CradleBody): (r: CradleWrite<Cradle>)
    ensures !Truthy(body.name) ==> r == CradleWrite(db, Refused(400, "cradle_name is required"))
    ensures Truthy(body.name) && !AnyOwnedMatch(db.cradles, cradleId, userId) ==>
              r == CradleWrite(db, Refused(404, "Cradle not found or unauthorized"))
    ensures r.db.samples == db.samples && r.db.notifications == db.notifications
    ensures |r.db.cradles| == |db.cradles|
    ensures forall k :: 0 <= k < |db.cradles| && !OwnedMatch(db.cradles[k], cradleId, userId) ==>
              r.db.cradles[k] == db.cradles[k]
    ensures r.response.Reply? ==>
              && Truthy(body.name)
              && r.response.body.id == cradleId && r.response.body.userId == userId
              && r.response.body.name == body.name.value
              && forall k :: 0 <= k < |db.cradles| && OwnedMatch(db.cradles[k], cradleId, userId) ==>
                   && r.db.cradles[k].name == body.name.value
                   && r.db.cradles[k].babyName == OrNull(body.babyName)
                   && r.db.cradles[k].location == OrNull(body.location)
                   && r.db.cradles[k].deviceKey == db.cradles[k].deviceKey
    ensures Truthy(body.name) && AnyOwnedMatch(db.cradles, cradleId, userId) ==>
              && r.response == Reply(200, r.db.cradles[FirstOwnedMatch(db.cradles, cradleId, userId)])
              && forall k :: 0 <= k < |db.cradles| && OwnedMatch(db.cradles[k], cradleId, userId) ==>
                   r.db.cradles[k] == Renamed(db.cradles[k], body)
  {
    if !Truthy(body.name) then CradleWrite(db, Refused(400, "cradle_name is required"))
    else if !AnyOwnedMatch(db.cradles, cradleId, userId) then
      CradleWrite(db, Refused(404, "Cradle not found or unauthorized"))
    else
      var updated := seq(|db.cradles|, k requires 0 <= k < |db.cradles| =>
                           if OwnedMatch(db.cradles[k], cradleId, userId) then Renamed(db.cradles[k], body)
                           else db.cradles[k]);
      var first := FirstOwnedMatch(db.cradles, cradleId, userId);
      CradleWrite(db.(cradles := updated), Reply(200, updated[first]))
  }

  function KeepCradles(cradles: seq<Cradle>, cradleId: Id, userId: Id): (r: seq<Cradle>)
    ensures |r| <= |cradles|
    ensures forall c :: c in r <==> c in cradles && !OwnedMatch(c, cradleId, userId)
    ensures Subsequence(r, cradles)
  {
    if |cradles| == 0 then []
    else
      var rest := KeepCradles(cradles[1..], cradleId, userId);
      assert [cradles[0]] + cradles[1..] == cradles;
      if OwnedMatch(cradles[0], cradleId, userId) then
        SubsequenceSkip(rest, cradles[0], cradles[1..]);
        rest
      else
        assert ([cradles[0]] + rest)[1..] == rest;
        [cradles[0]] + rest
  }

  function KeepSamples(samples: seq<SampleRow>, cradleId: Id): (r: seq<SampleRow>)
    ensures |r| <= |samples|
    ensures forall x :: x in r <==> x in samples && x.cradleId != cradleId
    ensures Subsequence(r, samples)
  {
    if |samples| == 0 then []
    else
      var rest := KeepSamples(samples[1..], cradleId);
      assert [samples[0]] + samples[1..] == samples;
      if samples[0].cradleId == cradleId then
        SubsequenceSkip(rest, samples[0], samples[1..]);
        rest
      else
        assert ([samples[0]] + rest)[1..] == rest;
        [samples[0]] + rest
  }

  /** Deleting one cradle's samples leaves every other cradle's stream exactly as it was, so
      their latest sample and their run of anomalies are unaffected. */
  lemma {:induction false} KeepSamplesKeepsStreams(samples: seq<SampleRow>, cradleId: Id, other: Id)
    requires other != cradleId
    ensures SamplesOf(KeepSamples(samples, cradleId), other) == SamplesOf(samples, other)
    decreases |samples|
  {
    if |samples| > 0 {
      var x := samples[0];
      var rest := KeepSamples(samples[1..], cradleId);
      assert samples == [x] + samples[1..];
      KeepSamplesKeepsStreams(samples[1..], cradleId, other);
      SamplesOfConcat([x], samples[1..], other);
      assert SamplesOf([x], other) == (if x.cradleId == other then [x] else []) by {
        assert [x][..0] == [];
      }
      if x.cradleId != cradleId {
        SamplesOfConcat([x], rest, other);
      }
    }
  }

  function KeepNotifications(ns: seq<Notification>, cradleId: Id): (r: seq<Notification>)
    ensures |r| <= |ns|
    ensures forall n :: n in r <==> n in ns && n.cradleId != cradleId
    ensures Subsequence(r, ns)
  {
    if |ns| == 0 then []
    else
      var rest := KeepNotifications(ns[1..], cradleId);
      assert [ns[0]] + ns[1..] == ns;
      if ns[0].cradleId == cradleId then
        SubsequenceSkip(rest, ns[0], ns[1..]);
        rest
      else
        assert ([ns[0]] + rest)[1..] == rest;
        [ns[0]] + rest
  }

  datatype Deleted = Deleted(message: string, id: Id)

  /** `deleteCradle`: removes the requester's row with that id; the schema's `ON DELETE CASCADE`
      removes its samples and notifications. */
  function DeleteCradle(db: Db, userId: Id, cradleId: Id): (r: CradleWrite<Deleted>)
    ensures !AnyOwnedMatch(db.cradles, cradleId, userId) ==>
              r == CradleWrite(db, Refused(404, "Cradle not found or unauthorized"))
    ensures AnyOwnedMatch(db.cradles, cradleId, userId) ==>
              && r.response == Reply(200, Deleted("Cradle deleted successfully", cradleId))
              && |r.db.cradles| < |db.cradles|
              && (forall c :: c in r.db.cradles <==> c in db.cradles && !OwnedMatch(c, cradleId, userId))
              && (forall x :: x in r.db.samples <==> x in db.samples && x.cradleId != cradleId)
              && (forall n :: n in r.db.notifications <==> n in db.notifications && n.cradleId != cradleId)
              && Subsequence(r.db.cradles, db.cradles)
              && Subsequence(r.db.samples, db.samples)
              && Subsequence(r.db.notifications, db.notifications)
              && (forall d: Id :: d != cradleId ==> SamplesOf(r.db.samples, d) == SamplesOf(db.samples, d))
  {
    if !AnyOwnedMatch(db.cradles, cradleId, userId) then
      CradleWrite(db, Refused(404, "Cradle not found or unauthorized"))
    else
      var k := FirstOwnedMatch(db.cradles, cradleId, userId);
      var kept := KeepCradles(db.cradles, cradleId, userId);
      assert db.cradles[k] !in kept;
      assert |kept| < |db.cradles| by {
        KeptIsSmaller(db.cradles, cradleId, userId);
      }
      assert forall d: Id :: d != cradleId ==> SamplesOf(KeepSamples(db.samples, cradleId), d) == SamplesOf(db.samples, d) by {
        forall d: Id | d != cradleId
          ensures SamplesOf(KeepSamples(db.samples, cradleId), d) == SamplesOf(db.samples, d)
        {
          KeepSamplesKeepsStreams(db.samples, cradleId, d);
        }
      }
      CradleWrite(Db(kept, KeepSamples(db.samples, cradleId), KeepNotifications(db.notifications, cradleId)),
                  Reply(200, Deleted("Cradle deleted successfully", cradleId)))
  }

  lemma {:induction false} KeptIsSmaller(cradles: seq<Cradle>, cradleId: Id, userId: Id)
    requires AnyOwnedMatch(cradles, cradleId, userId)
    ensures |KeepCradles(cradles, cradleId, userId)| < |cradles|
  {
    if !OwnedMatch(cradles[0], cradleId, userId) {
      var j :| 0 <= j < |cradles| && OwnedMatch(cradles[j], cradleId, userId);
      assert cradles[1..][j - 1] == cradles[j];
      KeptIsSmaller(cradles[1..], cradleId, userId);
    }
  }

  /** `getStatusByDeviceToken`: the `x-device-token` header must be present and match a cradle. */
  function GetStatusByDeviceToken(db: Db, token: Option<string>): (r: Response<StatusRow>)
    ensures !Truthy(token) ==> r == Refused(401, "Missing device token")
    ensures Truthy(token) && (forall k :: 0 <= k < |db.cradles| ==> db.cradles[k].deviceKey != token.value) ==>
              r == Refused(404, "Invalid token or cradle not found")
    ensures r.Reply? ==> && Truthy(token) && r.body.cradle in db.cradles
                         && r.body.cradle.deviceKey == token.value
                         && r.body.latest == LatestSample(db.samples, r.body.cradle.id)
    ensures Truthy(token) && (exists k :: 0 <= k < |db.cradles| && db.cradles[k].deviceKey == token.value) ==>
              && r.Reply? && r.status == 200
              && r.body.cradle == FindByDeviceKey(db.cradles, token.value).value
  {
    if !Truthy(token) then Refused(401, "Missing device token")
    else
      match FindByDeviceKey(db.cradles, token.value)
      case None => Refused(404, "Invalid token or cradle not found")
      case Some(c) => Reply(200, StatusRow(c, LatestSample(db.samples, c.id)))
  }

  /** A created cradle is listed for its owner and for no one else. */
  lemma CreatedCradleIsListed(db: Db, userId: Id, otherId: Id, body: CradleBody, newId: Id)
    requires Truthy(body.name) && Truthy(body.deviceKey)
    requires otherId != userId
    ensures var r := CreateCradle(db, userId, body, newId);
            && (exists k :: 0 <= k < |GetCradles(r.db, userId)| && GetCradles(r.db, userId)[k].cradle == r.response.body)
            && (forall k :: 0 <= k < |GetCradles(r.db, otherId)| ==> GetCradles(r.db, otherId)[k].cradle != r.response.body)
  {
    var r := CreateCradle(db, userId, body, newId);
    assert r.response.body in r.db.cradles;
    var listed := GetCradles(r.db, userId);
    var k :| 0 <= k < |listed| && listed[k].cradle == r.response.body;
  }

  /** After a successful delete, the requester no longer lists a cradle with that id. */
  lemma DeletedCradleIsNotListed(db: Db, userId: Id, cradleId: Id)
    requires AnyOwnedMatch(db.cradles, cradleId, userId)
    ensures var r := DeleteCradle(db, userId, cradleId);
            forall k :: 0 <= k < |GetCradles(r.db, userId)| ==> GetCradles(r.db, userId)[k].cradle.id != cradleId
  {
  }

  /** Repeating an update leaves the table as the first update left it. */
  lemma UpdateIdempotent(db: Db, userId: Id, cradleId: Id, body: CradleBody)
    ensures var once := UpdateCradle(db, userId, cradleId, body).db;
            UpdateCradle(once, userId, cradleId, body).db == once
  {
    var once := UpdateCradle(db, userId, cradleId, body).db;
    var twice := UpdateCradle(once, userId, cradleId, body).db;
    if Truthy(body.name) && AnyOwnedMatch(db.cradles, cradleId, userId) {
      var k :| 0 <= k < |db.cradles| && OwnedMatch(db.cradles[k], cradleId, userId);
      assert OwnedMatch(once.cradles[k], cradleId, userId);
      assert twice.cradles == once.cradles;
    }
  }
}

=== FILE: cradle_page.dfy ===
/** The live-status page of one cradle: uptime formatting and the offline threshold. */
module CradlePage {
  import opened Wrappers
  import opened Text
  import Tables
  import CradleApi

  const SecondsPerMinute: int := 60
  const SecondsPerHour: int := 3600
  const SecondsPerDay: int := 3600 * 24

  /** JavaScript `%` on integers: truncated toward zero, so the remainder takes the sign of `a`. */
  function JsRem(a: int, b: int): (r: int)
    requires b > 0
    ensures a >= 0 ==> r == a % b
    ensures a < 0 ==> -b < r <= 0
  {
    if a >= 0 then a % b else -((-a) % b)
  }

  datatype Parts = Parts(days: int, hours: int, minutes: int)

  /** `d`, `h` and `m` as `formatUptime` computes them; `Math.floor(x / k)` with `k > 0` is
      Dafny's `x / k`. */
  function UptimeParts(seconds: int): (p: Parts)
    ensures seconds >= 0 ==> 0 <= p.days && 0 <= p.hours < 24 && 0 <= p.minutes < 60
    ensures seconds >= 0 ==>
              var whole := p.days * SecondsPerDay + p.hours * SecondsPerHour + p.minutes * SecondsPerMinute;
              whole <= seconds < whole + SecondsPerMinute
    ensures seconds < 0 ==> p.days < 0 && p.hours <= 0 && p.minutes <= 0
  {
    var p := Parts(seconds / SecondsPerDay, JsRem(seconds, SecondsPerDay) / SecondsPerHour,
                   JsRem(seconds, SecondsPerHour) / SecondsPerMinute);
    PartsOfNonNegative(seconds);
    p
  }

  lemma PartsOfNonNegative(s: int)
    ensures s >= 0 ==>
            var d := s / SecondsPerDay;
            var h := (s % SecondsPerDay) / SecondsPerHour;
            var m := (s % SecondsPerHour) / SecondsPerMinute;
            && 0 <= d && 0 <= h < 24 && 0 <= m < 60
            && d * SecondsPerDay + h * SecondsPerHour + m * SecondsPerMinute <= s
            && s < d * SecondsPerDay + h * SecondsPerHour + m * SecondsPerMinute + SecondsPerMinute
  {
    if s < 0 {
      return;
    }
    var d := s / SecondsPerDay;
    var r1 := s % SecondsPerDay;
    var h := r1 / SecondsPerHour;
    var r2 := r1 % SecondsPerHour;
    assert s == SecondsPerDay * d + r1;
    assert r1 == SecondsPerHour * h + r2;
    assert h < 24;
    assert s == SecondsPerHour * (24 * d + h) + r2;
    RemOfDecomposition(s, SecondsPerHour, 24 * d + h, r2);
    var m := r2 / SecondsPerMinute;
    assert r2 == SecondsPerMinute * m + r2 % SecondsPerMinute;
  }

  /** Euclidean division is unique: a decomposition with an in-range remainder is the one. */
  lemma RemOfDecomposition(s: int, k: int, q: int, r: int)
    requires k > 0 && 0 <= r < k && s == k * q + r
    ensures s % k == r && s / k == q
  {
    var q' := s / k;
    var r' := s % k;
    assert k * q' + r' == k * q + r;
    if q' < q {
      MulDiff(k, q, q');
      MulAtLeast(k, q - q');
    } else if q' > q {
      MulDiff(k, q', q);
      MulAtLeast(k, q' - q);
    }
  }

  lemma MulDiff(k: int, a: int, b: int)
    ensures k * (a - b) == k * a - k * b
  {
  }

  lemma MulAtLeast(k: int, n: int)
    requires k > 0 && n >= 1
    ensures k * n >= k
  {
    assert k * n == k * (n - 1) + k;
  }

  /** The parts are determined by the mathematical decomposition of the uptime. */
  lemma {:induction false} PartsOfDecomposition(d: nat, h: nat, m: nat, sec: nat)
    requires h < 24 && m < 60 && sec < 60
    ensures UptimeParts(d * SecondsPerDay + h * SecondsPerHour + m * SecondsPerMinute + sec) == Parts(d, h, m)
  {
    var s := d * SecondsPerDay + h * SecondsPerHour + m * SecondsPerMinute + sec;
    var r1 := h * SecondsPerHour + m * SecondsPerMinute + sec;
    RemOfDecomposition(s, SecondsPerDay, d, r1);
    var r2 := m * SecondsPerMinute + sec;
    RemOfDecomposition(r1, SecondsPerHour, h, r2);
    RemOfDecomposition(s, SecondsPerHour, 24 * d + h, r2);
    RemOfDecomposition(r2, SecondsPerMinute, m, sec);
  }

  /** The non-zero parts, in the order days, hours, minutes. */
  function PresentParts(p: Parts): seq<string> {
    (if p.days > 0 then [IntToString(p.days) + "d"] else [])
    + (if p.hours > 0 then [IntToString(p.hours) + "h"] else [])
    + (if p.minutes > 0 then [IntToString(p.minutes) + "m"] else [])
  }

  /** `formatUptime`: a missing or zero uptime reads "0s". */
  function FormatUptime(seconds: Option<int>): (r: string)
    ensures seconds.None? || seconds == Some(0) ==> r == "0s"
    ensures seconds.Some? && (seconds.value < 0 || 0 < seconds.value < SecondsPerMinute) ==>
              r == IntToString(seconds.value) + "s"
  {
    if seconds.None? || seconds.value == 0 then "0s"
    else
      var parts := PresentParts(UptimeParts(seconds.value));
      if |parts| > 0 then JoinSpace(parts) else IntToString(seconds.value) + "s"
  }

  /** When some part is non-zero, the uptime is shown as the non-zero parts joined by spaces. */
  lemma FormatUptimeOfParts(s: int, d: nat, h: nat, m: nat)
    requires s > 0 && UptimeParts(s) == Parts(d, h, m) && d + h + m > 0
    ensures FormatUptime(Some(s))
         == JoinSpace((if d > 0 then [NatToString(d) + "d"] else [])
                      + (if h > 0 then [NatToString(h) + "h"] else [])
                      + (if m > 0 then [NatToString(m) + "m"] else []))
  {
  }

  /** An uptime of `d` days, `h` hours, `m` minutes and `sec` seconds (at least one minute in all)
      is shown as its non-zero parts joined by spaces; the seconds are dropped. */
  lemma FormatUptimeOfDecomposition(d: nat, h: nat, m: nat, sec: nat)
    requires h < 24 && m < 60 && sec < 60
    requires d + h + m > 0
    ensures FormatUptime(Some(d * SecondsPerDay + h * SecondsPerHour + m * SecondsPerMinute + sec))
         == JoinSpace((if d > 0 then [NatToString(d) + "d"] else [])
                      + (if h > 0 then [NatToString(h) + "h"] else [])
                      + (if m > 0 then [NatToString(m) + "m"] else []))
  {
    var s := d * SecondsPerDay + h * SecondsPerHour + m * SecondsPerMinute + sec;
    PartsOfDecomposition(d, h, m, sec);
    assert s >= d + h + m by {
      assert d * SecondsPerDay >= d;
      assert h * SecondsPerHour >= h;
      assert m * SecondsPerMinute >= m;
    }
    FormatUptimeOfParts(s, d, h, m);
  }

  /** `new Date(data.created_at)` in milliseconds. A cradle that never reported has a null
      `created_at` (the `LEFT JOIN LATERAL` finds no row), and `new Date(null)` is the epoch. */
  function CreatedAtMs(createdAt: Option<int>): (ms: int)
    ensures createdAt.None? ==> ms == 0
    ensures createdAt.Some? ==> ms == createdAt.value
  {
    createdAt.GetOr(0)
  }

  /** `new Date() - new Date(data.created_at) > 60 * 1000`, on millisecond timestamps. */
  predicate IsOffline(nowMs: int, createdAt: Option<int>) {
    nowMs - CreatedAtMs(createdAt) > 60 * 1000
  }

  /** The `created_at` of the row `/api/cradles/:id/latest` returns, given each sample's
      insertion time in milliseconds. */
  function LatestCreatedAt(row: CradleApi.StatusRow, stampMs: Tables.SampleRow -> int): (r: Option<int>)
    ensures r.None? <==> row.latest.None?
    ensures r.Some? ==> r.value == stampMs(row.latest.value)
  {
    match row.latest
    case None => None
    case Some(x) => Some(stampMs(x))
  }

  /** On the cradle page, a cradle that has never sent a sample is shown offline (at any time
      after the first minute of the epoch), and one that has is offline exactly when its newest
      sample is more than a minute old. */
  lemma OfflineFollowsNewestSample(db: Tables.Db, cradleId: Tables.Id, nowMs: int, stampMs: Tables.SampleRow -> int)
    requires CradleApi.GetLatestStatus(db, cradleId).Reply?
    ensures var row := CradleApi.GetLatestStatus(db, cradleId).body;
            var newest := Tables.NewestFirst(db.samples, cradleId);
            && (|newest| == 0 ==> (IsOffline(nowMs, LatestCreatedAt(row, stampMs)) <==> nowMs > 60 * 1000))
            && (|newest| > 0 ==> (IsOffline(nowMs, LatestCreatedAt(row, stampMs)) <==> nowMs - stampMs(newest[0]) > 60 * 1000))
  {
    var row := CradleApi.GetLatestStatus(db, cradleId).body;
    var newest := Tables.NewestFirst(db.samples, cradleId);
    if |newest| == 0 {
      assert Tables.SamplesOf(db.samples, cradleId) == [];
    } else {
      var last := Tables.SamplesOf(db.samples, cradleId)[|Tables.SamplesOf(db.samples, cradleId)| - 1];
      assert last in Tables.SamplesOf(db.samples, cradleId);
    }
  }
}

=== FILE: dashboard_page.dfy ===
/** The dashboard's cradle cards: the tri-state status badge and the display fallbacks. */
module DashboardPage {
  import opened Wrappers
  import opened Text
  import opened Tables
  import opened Http
  import opened CradleApi
  import opened Ingest

  datatype Status = NoData | Normal | AttentionNeeded

  /** The badge from `anomaly_overall`: `false` is normal, `true` needs attention, `null` is no data. */
  function Classify(anomalyOverall: Option<bool>): (s: Status)
    ensures s == Normal <==> anomalyOverall == Some(false)
    ensures s == AttentionNeeded <==> anomalyOverall == Some(true)
    ensures s == NoData <==> anomalyOverall.None?
  {
    match anomalyOverall
    case None => NoData
    case Some(anomalous) => if anomalous then AttentionNeeded else Normal
  }

  /** The badge text of a card; each status has its own text. */
  function StatusText(s: Status): (t: string)
    ensures t == "No Data" <==> s == NoData
    ensures t == "Normal" <==> s == Normal
    ensures t == "Attention Needed" <==> s == AttentionNeeded
  {
    match s
    case NoData => "No Data"
    case Normal => "Normal"
    case AttentionNeeded => "Attention Needed"
  }

  /** `c.location || "Unknown Location"`. */
  function LocationLabel(location: Option<string>): (shown: string)
    ensures Truthy(location) ==> shown == location.value
    ensures !Truthy(location) ==> shown == "Unknown Location"
  {
    OrElse(location, "Unknown Location")
  }

  /** `c.baby_name || "Not Set"`. */
  function BabyNameLabel(babyName: Option<string>): (shown: string)
    ensures Truthy(babyName) ==> shown == babyName.value
    ensures !Truthy(babyName) ==> shown == "Not Set"
  {
    OrElse(babyName, "Not Set")
  }

  /** A card's status is the classification of its cradle's newest sample: no samples is
      "No Data", otherwise the newest sample decides. */
  lemma CardStatusFollowsNewestSample(db: Db, userId: Id, k: nat)
    requires k < |GetCradles(db, userId)|
    ensures var card := GetCradles(db, userId)[k];
            && (Classify(card.anomalyOverall) == NoData <==>
                  forall x :: x in db.samples ==> x.cradleId != card.cradle.id)
            && (Classify(card.anomalyOverall) != NoData ==>
                  Classify(card.anomalyOverall)
                  == (if LatestSample(db.samples, card.cradle.id).value.reading.anomaly.overall
                      then AttentionNeeded else Normal))
  {
  }

  /** Right after a sample is stored for a cradle, its owner's card shows that sample's status. */
  lemma IngestSetsCardStatus(db: Db, cradleId: Id, reading: Reading, notificationId: Id,
                             faults: IngestFaults, userId: Id, k: nat)
    requires faults.insertSample.None?
    requires var after := IngestLog(db, cradleId, reading, notificationId, faults).db;
             k < |GetCradles(after, userId)| && GetCradles(after, userId)[k].cradle.id == cradleId
    ensures var after := IngestLog(db, cradleId, reading, notificationId, faults).db;
            Classify(GetCradles(after, userId)[k].anomalyOverall)
            == (if reading.anomaly.overall then AttentionNeeded else Normal)
  {
    var after := IngestLog(db, cradleId, reading, notificationId, faults).db;
    SamplesOfAppend(db.samples, SampleRow(cradleId, reading), cradleId);
  }

  /** A cradle created with an empty or missing location or baby name shows the fallback text;
      otherwise it shows what was entered. */
  lemma CreatedCradleLabels(db: Db, userId: Id, body: CradleBody, newId: Id)
    requires Truthy(body.name) && Truthy(body.deviceKey)
    ensures var c := CreateCradle(db, userId, body, newId).response.body;
            && LocationLabel(c.location) == OrElse(body.location, "Unknown Location")
            && BabyNameLabel(c.babyName) == OrElse(body.babyName, "Not Set")
  {
  }
}

=== FILE: device_auth.dfy ===
/** The device-key gate (`authDevice`) that precedes ingestion: a device identifies itself by
    the `x-device-key` header, which must match some cradle's `device_key`. */
module DeviceAuth {
  import opened Wrappers
  import opened Text
  import opened Tables

  /** Either the request is answered with an error, or `next()` runs with `req.cradleId` and
      `req.userId` set. */
  datatype Gate = Rejected(status: nat, error: string) | Next(cradleId: Id, userId: Id)

  function AuthDevice(cradles: seq<Cradle>, deviceKey: Option<string>): (g: Gate)
    ensures !Truthy(deviceKey) ==> g == Rejected(401, "Device key missing")
    ensures Truthy(deviceKey) && (forall k :: 0 <= k < |cradles| ==> cradles[k].deviceKey != deviceKey.value)
            ==> g == Rejected(401, "Invalid device key")
    ensures g.Next? <==> Truthy(deviceKey)
                         && exists k :: 0 <= k < |cradles| && cradles[k].deviceKey == deviceKey.value
    ensures g.Next? ==> exists k :: 0 <= k < |cradles| && cradles[k].deviceKey == deviceKey.value
                                    && cradles[k].id == g.cradleId && cradles[k].userId == g.userId
  {
    if !Truthy(deviceKey) then Rejected(401, "Device key missing")
    else
      match FindByDeviceKey(cradles, deviceKey.value)
      case None => Rejected(401, "Invalid device key")
      case Some(c) => Next(c.id, c.userId)
  }
}

=== FILE: history_page.dfy ===
/** The history table page: per-row anomaly badges, live prepending and the uptime column. */
module HistoryPage {
  import opened Seqs
  import opened Tables

  /** The badges of the status column. */
  datatype Badge = Temp | Hum | MotionBadge | NoiseBadge | NormalBadge

  /** The text each badge shows. */
  function BadgeLabel(b: Badge): string {
    match b
    case Temp => "Temp"
    case Hum => "Hum"
    case MotionBadge => "Motion"
    case NoiseBadge => "Noise"
    case NormalBadge => "Normal"
  }

  /** Position of an anomaly badge in the order the page pushes them. */
  function BadgeRank(b: Badge): nat {
    match b
    case Temp => 0
    case Hum => 1
    case MotionBadge => 2
    case NoiseBadge => 3
    case NormalBadge => 4
  }

  predicate AnySubFlag(f: Flags) {
    f.temperature || f.humidity || f.motion || f.noise
  }

  /** `getAnomalyBadges`: a badge per set sub-flag, in the order Temp, Hum, Motion, Noise, or the
      single "Normal" badge. `anomaly_overall` is not consulted. */
  function AnomalyBadges(f: Flags): (r: seq<Badge>)
    ensures 1 <= |r| <= 4
    ensures r == [NormalBadge] <==> !AnySubFlag(f)
    ensures Temp in r <==> f.temperature
    ensures Hum in r <==> f.humidity
    ensures MotionBadge in r <==> f.motion
    ensures NoiseBadge in r <==> f.noise
    ensures forall i, j :: 0 <= i < j < |r| ==> BadgeRank(r[i]) < BadgeRank(r[j])
  {
    var anomalies := (if f.temperature then [Temp] else [])
                     + (if f.humidity then [Hum] else [])
                     + (if f.motion then [MotionBadge] else [])
                     + (if f.noise then [NoiseBadge] else []);
    if |anomalies| == 0 then [NormalBadge]
    else
      assert NormalBadge !in anomalies;
      anomalies
  }

  /** A row flagged anomalous overall but with no sub-flag is badged "Normal". */
  lemma OverallOnlyRowShowsNormal()
    ensures AnomalyBadges(Flags(true, false, false, false, false)) == [NormalBadge]
  {
  }

  /** `handleNewData`: `[newData, ...prev]`. */
  function PrependNewData<T>(prev: seq<T>, newData: T): (r: seq<T>)
    ensures |r| == |prev| + 1 && r[0] == newData && r[1..] == prev
  {
    [newData] + prev
  }

  /** Prepending the row just stored for the page's cradle keeps the list equal to the newest
      rows of the table, one more than before. */
  lemma PrependMatchesNewestFirst(samples: seq<SampleRow>, cradleId: Id, row: SampleRow, n: nat)
    requires row.cradleId == cradleId
    ensures PrependNewData(Take(NewestFirst(samples, cradleId), n), row)
         == Take(NewestFirst(samples + [row], cradleId), n + 1)
  {
    SamplesOfAppend(samples, row, cradleId);
    ReverseAppend(SamplesOf(samples, cradleId), row);
  }

  /** `Math.floor(Number(r.uptime_seconds) / 60)`: whole minutes, rounded down. */
  function UptimeMinutes(seconds: int): (m: int)
    ensures m * 60 <= seconds < m * 60 + 60
  {
    seconds / 60
  }
}

=== FILE: http.dfy ===
/** What a request handler sends back, and what a failing SQL call throws. */
module Http {

  /** A driver error: the SQLSTATE `code` and its `message`. */
  datatype DbError = DbError(code: string, message: string)

  /** `res.status(status).json(body)` on success, or `res.status(status).json({ error })`. */
  datatype Response<+T> = Reply(status: nat, body: T) | Refused(status: nat, error: string)
}

=== FILE: ingest.dfy ===
/** The ingestion handler (`ingestLog`): store the device's sample, then, if it is anomalous,
    read back the newest seven flags of that cradle and insert one notification when the
    six-of-seven transition rule holds. Every SQL call sits in one `try` block. */
module Ingest {
  import opened Wrappers
  import opened Seqs
  import opened Tables
  import opened Http
  import opened Streak
  import opened DeviceAuth

  /** Which SQL call, if any, throws: the sample insert, the history read, the cradle lookup or
      the notification insert. A call that is never reached cannot throw. */
  datatype IngestFaults = IngestFaults(insertSample: Option<DbError>, readHistory: Option<DbError>,
                                       readCradle: Option<DbError>, insertNotification: Option<DbError>)

  const NoFaults := IngestFaults(None, None, None, None)

  datatype IngestResult = IngestResult(db: Db, response: Response<string>)

  /** The SQLSTATE of a unique-constraint violation. */
  const UniqueViolation := "23505"

  /** The shared `catch` clause. */
  function CatchResponse(e: DbError): (r: Response<string>)
    ensures r.Refused?
    ensures e.code == UniqueViolation <==> r.status == 409
    ensures e.code != UniqueViolation ==> r == Refused(500, e.message)
  {
    if e.code == UniqueViolation then Refused(409, "Duplicate timestamp") else Refused(500, e.message)
  }

  const Accepted: Response<string> := Reply(200, "ok")

  /** The row inserted on a transition: fixed type, key and title, addressed to the cradle's owner. */
  function AnomalyNotification(id: Id, cradle: Cradle): (n: Notification)
    ensures n.userId == cradle.userId && n.cradleId == cradle.id && !n.isRead
    ensures n.kind == "ANOMALY" && n.alertKey == "OVERALL" && n.title == "High Anomaly Detected"
  {
    Notification(id, cradle.userId, cradle.id, "ANOMALY", "OVERALL", "High Anomaly Detected",
                 "Cradle \"" + cradle.name + "\" has reported continuous anomalies (>5).", false)
  }

  /** `SELECT anomaly_overall ... WHERE cradle_id = $1 ORDER BY created_at DESC LIMIT 7`. */
  function HistoryWindow(samples: seq<SampleRow>, cradleId: Id): seq<bool> {
    Take(OverallColumn(NewestFirst(samples, cradleId)), HistoryLimit)
  }

  /** The history query reads the latest window of the cradle's flag stream. */
  lemma HistoryWindowIsLatestWindow(samples: seq<SampleRow>, cradleId: Id)
    ensures HistoryWindow(samples, cradleId) == LatestWindow(OverallColumn(SamplesOf(samples, cradleId)))
  {
    var rows := SamplesOf(samples, cradleId);
    assert OverallColumn(Reverse(rows)) == Reverse(OverallColumn(rows));
  }

  /** The flag stream of a cradle. */
  function StreamOf(samples: seq<SampleRow>, cradleId: Id): seq<bool> {
    OverallColumn(SamplesOf(samples, cradleId))
  }

  function IngestLog(db: Db, cradleId: Id, reading: Reading, notificationId: Id, faults: IngestFaults)
    : (r: IngestResult)
    ensures r.db.cradles == db.cradles
    ensures faults.insertSample.Some? ==> r.db == db && r.response == CatchResponse(faults.insertSample.value)
    ensures faults.insertSample.None? ==> r.db.samples == db.samples + [SampleRow(cradleId, reading)]
    ensures r.db.notifications == db.notifications
            || (&& reading.anomaly.overall
                && TransitionDetected(HistoryWindow(r.db.samples, cradleId))
                && FindCradle(db.cradles, cradleId).Some?
                && r.db.notifications
                   == db.notifications + [AnomalyNotification(notificationId, FindCradle(db.cradles, cradleId).value)]
                && r.response == Accepted)
    ensures faults == NoFaults ==> r.response == Accepted
    ensures r.response == Accepted || r.response == CatchResponse(faults.insertSample.GetOr(DbError("", "")))
            || r.response == CatchResponse(faults.readHistory.GetOr(DbError("", "")))
            || r.response == CatchResponse(faults.readCradle.GetOr(DbError("", "")))
            || r.response == CatchResponse(faults.insertNotification.GetOr(DbError("", "")))
  {
    if faults.insertSample.Some? then IngestResult(db, CatchResponse(faults.insertSample.value))
    else
      var stored := db.(samples := db.samples + [SampleRow(cradleId, reading)]);
      if !reading.anomaly.overall then IngestResult(stored, Accepted)
      else if faults.readHistory.Some? then IngestResult(stored, CatchResponse(faults.readHistory.value))
      else if !TransitionDetected(HistoryWindow(stored.samples, cradleId)) then IngestResult(stored, Accepted)
      else if faults.readCradle.Some? then IngestResult(stored, CatchResponse(faults.readCradle.value))
      else
        match FindCradle(stored.cradles, cradleId)
        case None => IngestResult(stored, Accepted)
        case Some(cradle) =>
          if faults.insertNotification.Some? then IngestResult(stored, CatchResponse(faults.insertNotification.value))
          else
            IngestResult(stored.(notifications := stored.notifications + [AnomalyNotification(notificationId, cradle)]),
                         Accepted)
  }

  /** A normal sample never reaches the history read, the cradle lookup or the notification
      insert: faults there cannot change the outcome, and no notification is created. */
  lemma NormalSampleSkipsHistory(db: Db, cradleId: Id, reading: Reading, notificationId: Id, faults: IngestFaults)
    requires !reading.anomaly.overall
    ensures var r := IngestLog(db, cradleId, reading, notificationId, faults);
            && r == IngestLog(db, cradleId, reading, notificationId, NoFaults.(insertSample := faults.insertSample))
            && r.db.notifications == db.notifications
            && (faults.insertSample.None? ==> r.response == Accepted)
  {
  }

  /** No transaction: a failure after the sample insert answers through the shared `catch`
      (409 for a unique violation, 500 otherwise), adds no notification, and keeps the sample. */
  lemma LateFailureKeepsSample(db: Db, cradleId: Id, reading: Reading, notificationId: Id, faults: IngestFaults)
    requires faults.insertSample.None?
    ensures var r := IngestLog(db, cradleId, reading, notificationId, faults);
            r.db.samples == db.samples + [SampleRow(cradleId, reading)]
    ensures var r := IngestLog(db, cradleId, reading, notificationId, faults);
            reading.anomaly.overall && faults.readHistory.Some? ==>
              r.response == CatchResponse(faults.readHistory.value) && r.db.notifications == db.notifications
    ensures var r := IngestLog(db, cradleId, reading, notificationId, faults);
            && reading.anomaly.overall && faults.readHistory.None?
            && TransitionDetected(HistoryWindow(r.db.samples, cradleId))
            && faults.readCradle.Some? ==>
              r.response == CatchResponse(faults.readCradle.value) && r.db.notifications == db.notifications
    ensures var r := IngestLog(db, cradleId, reading, notificationId, faults);
            && reading.anomaly.overall && faults.readHistory.None?
            && TransitionDetected(HistoryWindow(r.db.samples, cradleId))
            && faults.readCradle.None? && FindCradle(db.cradles, cradleId).Some?
            && faults.insertNotification.Some? ==>
              r.response == CatchResponse(faults.insertNotification.value) && r.db.notifications == db.notifications
  {
  }

  /** Headline: with no failures and an existing cradle, an ingest inserts a notification exactly
      when the anomalous run ending at the new sample is six long. */
  lemma IngestNotifiesIffRunOfSix(db: Db, cradleId: Id, reading: Reading, notificationId: Id)
    requires FindCradle(db.cradles, cradleId).Some?
    ensures var r := IngestLog(db, cradleId, reading, notificationId, NoFaults);
            && (r.db.notifications != db.notifications <==> RunLength(StreamOf(r.db.samples, cradleId)) == Threshold)
            && (r.db.notifications != db.notifications ==>
                  r.db.notifications == db.notifications + [AnomalyNotification(notificationId, FindCradle(db.cradles, cradleId).value)])
  {
    var r := IngestLog(db, cradleId, reading, notificationId, NoFaults);
    var stream := StreamOf(r.db.samples, cradleId);
    SamplesOfAppend(db.samples, SampleRow(cradleId, reading), cradleId);
    HistoryWindowIsLatestWindow(r.db.samples, cradleId);
    FiresIffRunOfSix(stream);
    assert stream[|stream| - 1] == reading.anomaly.overall;
  }

  /** The full request: the device gate, then the handler with the ids it sets. */
  function IngestRequest(db: Db, deviceKey: Option<string>, reading: Reading, notificationId: Id,
                         faults: IngestFaults): (r: IngestResult)
    ensures AuthDevice(db.cradles, deviceKey).Rejected? ==> r.db == db && r.response.Refused? && r.response.status == 401
    ensures AuthDevice(db.cradles, deviceKey).Next? ==>
              r == IngestLog(db, AuthDevice(db.cradles, deviceKey).cradleId, reading, notificationId, faults)
  {
    match AuthDevice(db.cradles, deviceKey)
    case Rejected(status, error) => IngestResult(db, Refused(status, error))
    case Next(cradleId, _) => IngestLog(db, cradleId, reading, notificationId, faults)
  }

  /** The table after one ingest with no failures. */
  function IngestStep(db: Db, cradleId: Id, reading: Reading, notificationId: Id): (r: Db)
    ensures r.cradles == db.cradles
    ensures r.samples == db.samples + [SampleRow(cradleId, reading)]
  {
    IngestLog(db, cradleId, reading, notificationId, NoFaults).db
  }

  /** A cradle receiving `readings` one after another, with no failures; the i-th ingest may use
      notification id `firstId + i`. */
  function IngestMany(db: Db, cradleId: Id, readings: seq<Reading>, firstId: Id): (r: Db)
    ensures r.cradles == db.cradles
    ensures r.samples == db.samples + SampleRows(cradleId, readings)
    decreases |readings|
  {
    if |readings| == 0 then db
    else
      var next := IngestStep(db, cradleId, readings[0], firstId);
      SampleRowsCons(cradleId, readings);
      IngestMany(next, cradleId, readings[1..], firstId + 1)
  }

  function SampleRows(cradleId: Id, readings: seq<Reading>): (r: seq<SampleRow>)
    ensures |r| == |readings|
    ensures forall k :: 0 <= k < |r| ==> r[k] == SampleRow(cradleId, readings[k])
  {
    seq(|readings|, k requires 0 <= k < |readings| => SampleRow(cradleId, readings[k]))
  }

  lemma SampleRowsCons(cradleId: Id, readings: seq<Reading>)
    requires |readings| > 0
    ensures SampleRows(cradleId, readings) == [SampleRow(cradleId, readings[0])] + SampleRows(cradleId, readings[1..])
  {
  }

  /** How many steps `from <= i < |stream|` of a stream fire. */
  function CountFires(stream: seq<bool>, from: nat): nat
    decreases |stream| - from
  {
    if from >= |stream| then 0
    else (if FiresAt(stream, from) then 1 else 0) + CountFires(stream, from + 1)
  }

  /** One failure-free ingest adds one notification when the stream fires, none otherwise. */
  lemma IngestStepCount(db: Db, cradleId: Id, reading: Reading, notificationId: Id)
    requires FindCradle(db.cradles, cradleId).Some?
    ensures var d := IngestStep(db, cradleId, reading, notificationId);
            |d.notifications| == |db.notifications| + (if FiresOn(StreamOf(d.samples, cradleId)) then 1 else 0)
  {
    var d := IngestStep(db, cradleId, reading, notificationId);
    IngestNotifiesIffRunOfSix(db, cradleId, reading, notificationId);
    FiresIffRunOfSix(StreamOf(d.samples, cradleId));
  }

  /** The stream after more ingests extends the stream after fewer. */
  lemma StreamPrefix(a: seq<SampleRow>, b: seq<SampleRow>, cradleId: Id)
    ensures var s := StreamOf(a + b, cradleId);
            |StreamOf(a, cradleId)| <= |s| && s[..|StreamOf(a, cradleId)|] == StreamOf(a, cradleId)
  {
    SamplesOfConcat(a, b, cradleId);
  }

  /** Over a run of ingests, the notifications created are exactly the firing steps of the
      cradle's flag stream, counted from the first new sample. */
  lemma {:induction false} IngestManyCountsFires(db: Db, cradleId: Id, readings: seq<Reading>, firstId: Id)
    requires FindCradle(db.cradles, cradleId).Some?
    ensures var r := IngestMany(db, cradleId, readings, firstId);
            |r.notifications| == |db.notifications|
                                 + CountFires(StreamOf(r.samples, cradleId), |SamplesOf(db.samples, cradleId)|)
    decreases |readings|
  {
    var r := IngestMany(db, cradleId, readings, firstId);
    var prior := SamplesOf(db.samples, cradleId);
    var stream := StreamOf(r.samples, cradleId);
    if |readings| == 0 {
      assert |stream| == |prior|;
    } else {
      var row := SampleRow(cradleId, readings[0]);
      var next := IngestStep(db, cradleId, readings[0], firstId);
      assert r == IngestMany(next, cradleId, readings[1..], firstId + 1);
      IngestManyCountsFires(next, cradleId, readings[1..], firstId + 1);
      IngestStepCount(db, cradleId, readings[0], firstId);
      SamplesOfAppend(db.samples, row, cradleId);
      assert |SamplesOf(next.samples, cradleId)| == |prior| + 1;
      StreamPrefix(next.samples, SampleRows(cradleId, readings[1..]), cradleId);
      assert stream[..|prior| + 1] == StreamOf(next.samples, cradleId);
    }
  }
}

=== FILE: navbar.dfy ===
/** The navigation bar's notification poll: the unread count behind the bell dot and the toast
    for a newly arrived notification. */
module Navbar {
  import opened Wrappers
  import opened Seqs
  import opened Tables
  import opened Streak
  import opened NotificationApi
  import opened Ingest

  /** `data.filter(n => !n.is_read).length`. */
  function UnreadCount(data: seq<NotificationView>): (count: nat)
    ensures count <= |data|
    ensures count == 0 <==> forall k :: 0 <= k < |data| ==> data[k].n.isRead
    ensures count == |data| <==> forall k :: 0 <= k < |data| ==> !data[k].n.isRead
  {
    if |data| == 0 then 0
    else
      var rest := UnreadCount(data[1..]);
      assert forall k :: 1 <= k < |data| ==> data[k] == data[1..][k - 1];
      if data[0].n.isRead then rest else rest + 1
  }

  /** The count is additive over concatenation, and one item counts one exactly when it is
      unread: together these pin it to the number of unread items. */
  lemma {:induction false} UnreadCountConcat(a: seq<NotificationView>, b: seq<NotificationView>)
    ensures UnreadCount(a + b) == UnreadCount(a) + UnreadCount(b)
    ensures |a| == 1 ==> UnreadCount(a) == (if a[0].n.isRead then 0 else 1)
    decreases |a|
  {
    if |a| > 0 {
      assert (a + b)[1..] == a[1..] + b;
      UnreadCountConcat(a[1..], b);
    } else {
      assert a + b == b;
    }
  }

  /** What the poll keeps between runs: the closure's `lastSeenId` and the `unreadCount` state. */
  datatype NavState = NavState(lastSeen: Option<Id>, unread: nat)

  /** Before the first poll. */
  const Initial := NavState(None, 0)

  datatype PollResult = PollResult(state: NavState, toast: Option<string>)

  const DefaultToast := "New Notification"

  /** One run of `checkNotifications`; `fetched` is the list the request returned, `None` when
      it threw (the error is only logged, so nothing changes). */
  function Poll(s: NavState, fetched: Option<seq<NotificationView>>): (r: PollResult)
    ensures fetched.None? ==> r == PollResult(s, None)
    ensures fetched.Some? ==> r.state.unread == UnreadCount(fetched.value)
    ensures fetched.Some? && |fetched.value| > 0 ==> r.state.lastSeen == Some(fetched.value[0].n.id)
    ensures fetched.Some? && |fetched.value| == 0 ==> r.state.lastSeen == s.lastSeen && r.toast.None?
    ensures r.toast.Some? <==> (&& fetched.Some? && |fetched.value| > 0 && s.lastSeen.Some?
                                && fetched.value[0].n.id != s.lastSeen.value)
    ensures r.toast.Some? ==> var m := fetched.value[0].n.message;
                              r.toast.value == if |m| > 0 then m else DefaultToast
  {
    match fetched
    case None => PollResult(s, None)
    case Some(data) =>
      var unread := UnreadCount(data);
      if |data| == 0 then PollResult(NavState(s.lastSeen, unread), None)
      else
        var latest := data[0].n;
        var toast := if s.lastSeen.Some? && latest.id != s.lastSeen.value
                     then Some(if |latest.message| > 0 then latest.message else DefaultToast)
                     else None;
        PollResult(NavState(Some(latest.id), unread), toast)
  }

  /** `unreadCount > 0`: whether the bell shows its dot. */
  predicate BellDot(s: NavState) {
    s.unread > 0
  }

  /** The bell dot after a successful poll shows exactly whether the fetched list has an unread item. */
  lemma BellDotIffUnread(s: NavState, data: seq<NotificationView>)
    ensures BellDot(Poll(s, Some(data)).state) <==> exists k :: 0 <= k < |data| && !data[k].n.isRead
  {
  }

  /** The very first poll only records where the list starts; it never toasts. */
  lemma FirstPollNeverToasts(fetched: Option<seq<NotificationView>>)
    ensures Poll(Initial, fetched).toast.None?
  {
  }

  /** Fetching the same list again toasts nothing and changes nothing. */
  lemma RepeatedPollIsQuiet(s: NavState, fetched: Option<seq<NotificationView>>)
    ensures var once := Poll(s, fetched);
            Poll(once.state, fetched) == PollResult(once.state, None)
  {
  }

  /** A sequence of polls from `s`, with the toasts they raise in order. */
  function PollAll(s: NavState, fetches: seq<Option<seq<NotificationView>>>): (r: (NavState, seq<string>))
    ensures |r.1| <= |fetches|
    decreases |fetches|
  {
    if |fetches| == 0 then (s, [])
    else
      var step := Poll(s, fetches[0]);
      var rest := PollAll(step.state, fetches[1..]);
      (rest.0, (if step.toast.Some? then [step.toast.value] else []) + rest.1)
  }

  /** Reference: the id at the head of the last successful, non-empty fetch. */
  function NewestSeen(fetches: seq<Option<seq<NotificationView>>>): Option<Id>
    decreases |fetches|
  {
    if |fetches| == 0 then None
    else
      var last := fetches[|fetches| - 1];
      if last.Some? && |last.value| > 0 then Some(last.value[0].n.id)
      else NewestSeen(fetches[..|fetches| - 1])
  }

  lemma {:induction false} PollAllAppend(s: NavState, fetches: seq<Option<seq<NotificationView>>>,
                                         f: Option<seq<NotificationView>>)
    ensures var before := PollAll(s, fetches);
            var step := Poll(before.0, f);
            PollAll(s, fetches + [f])
              == (step.state, before.1 + (if step.toast.Some? then [step.toast.value] else []))
    decreases |fetches|
  {
    if |fetches| == 0 {
      assert fetches + [f] == [f];
      var step := Poll(s, f);
      var tail: seq<string> := if step.toast.Some? then [step.toast.value] else [];
      assert PollAll(s, [f]) == (step.state, tail + []);
      assert tail + [] == [] + tail;
    } else {
      var step := Poll(s, fetches[0]);
      assert (fetches + [f])[1..] == fetches[1..] + [f];
      PollAllAppend(step.state, fetches[1..], f);
      var head: seq<string> := if step.toast.Some? then [step.toast.value] else [];
      var rest := PollAll(step.state, fetches[1..]);
      var last := Poll(rest.0, f);
      var tail: seq<string> := if last.toast.Some? then [last.toast.value] else [];
      assert head + (rest.1 + tail) == (head + rest.1) + tail;
    }
  }

  /** After any sequence of polls from the start, `lastSeenId` is the head of the last
      non-empty list fetched, whatever failed or came back empty in between. */
  lemma {:induction false} PollAllTracksNewest(fetches: seq<Option<seq<NotificationView>>>)
    ensures PollAll(Initial, fetches).0.lastSeen == NewestSeen(fetches)
    decreases |fetches|
  {
    if |fetches| > 0 {
      var init := fetches[..|fetches| - 1];
      var last := fetches[|fetches| - 1];
      assert fetches == init + [last];
      PollAllAppend(Initial, init, last);
      PollAllTracksNewest(init);
    }
  }

  /** End to end: when an ingest completes a run of six anomalies, the owner's next poll (made
      while the bell last saw a different id) toasts the new alert's message. */
  lemma AnomalyAlertIsToasted(db: Db, cradleId: Id, reading: Reading, notificationId: Id, s: NavState)
    requires FindCradle(db.cradles, cradleId).Some?
    requires RunLength(StreamOf(IngestLog(db, cradleId, reading, notificationId, NoFaults).db.samples, cradleId)) == Threshold
    requires s.lastSeen.Some? && s.lastSeen.value != notificationId
    ensures var cradle := FindCradle(db.cradles, cradleId).value;
            var after := IngestLog(db, cradleId, reading, notificationId, NoFaults).db;
            var fetched := GetNotifications(after, cradle.userId, None).body;
            Poll(s, Some(fetched)).toast == Some(AnomalyNotification(notificationId, cradle).message)
  {
    var cradle := FindCradle(db.cradles, cradleId).value;
    var alert := AnomalyNotification(notificationId, cradle);
    var after := IngestLog(db, cradleId, reading, notificationId, NoFaults).db;
    IngestNotifiesIffRunOfSix(db, cradleId, reading, notificationId);
    assert after.notifications == db.notifications + [alert];
    VisibleAppend(db.notifications, alert, db.cradles, cradle.userId);
    var fetched := GetNotifications(after, cradle.userId, None).body;
    assert fetched[0].n == alert;
    assert |alert.message| > 0;
  }
}

=== FILE: notification_api.dfy ===
/** The notification controller: the requester's newest notifications and their read flags. */
module NotificationApi {
  import opened Wrappers
  import opened Seqs
  import opened Tables
  import opened Http

  /** A notification row joined with its cradle's name (`SELECT n.*, c.cradle_name`). */
  datatype NotificationView = NotificationView(n: Notification, cradleName: string)

  /** `FROM notifications n JOIN cradles c ON n.cradle_id = c.id WHERE n.user_id = $1`, in
      insertion (oldest-first) order. A row whose cradle is gone is not listed. */
  function Visible(ns: seq<Notification>, cradles: seq<Cradle>, userId: Id): (r: seq<NotificationView>)
    ensures |r| <= |ns|
  {
    if |ns| == 0 then []
    else
      var head := ns[0];
      if head.userId == userId && FindCradle(cradles, head.cradleId).Some? then
        [NotificationView(head, FindCradle(cradles, head.cradleId).value.name)] + Visible(ns[1..], cradles, userId)
      else Visible(ns[1..], cradles, userId)
  }

  /** A joined row: the requester's, with a cradle that still exists, carrying that cradle's name. */
  predicate Joined(v: NotificationView, cradles: seq<Cradle>, userId: Id) {
    && v.n.userId == userId
    && FindCradle(cradles, v.n.cradleId).Some?
    && v.cradleName == FindCradle(cradles, v.n.cradleId).value.name
  }

  /** Every listed row is a joined row of the table. */
  lemma {:induction false} VisibleSound(ns: seq<Notification>, cradles: seq<Cradle>, userId: Id)
    ensures forall v :: v in Visible(ns, cradles, userId) ==> Joined(v, cradles, userId) && v.n in ns
    decreases |ns|
  {
    if |ns| > 0 {
      VisibleSound(ns[1..], cradles, userId);
      var rest := Visible(ns[1..], cradles, userId);
      var r := Visible(ns, cradles, userId);
      var head := ns[0];
      assert ns == [head] + ns[1..];
      if head.userId == userId && FindCradle(cradles, head.cradleId).Some? {
        assert r == [NotificationView(head, FindCradle(cradles, head.cradleId).value.name)] + rest;
      } else {
        assert r == rest;
      }
      forall v | v in r
        ensures Joined(v, cradles, userId) && v.n in ns
      {
        if v in rest {
          assert v.n in ns[1..];
        }
      }
    }
  }

  /** Every row of the requester whose cradle exists is listed, joined with that cradle's name. */
  lemma {:induction false} VisibleComplete(ns: seq<Notification>, cradles: seq<Cradle>, userId: Id)
    ensures forall n :: n in ns && n.userId == userId && FindCradle(cradles, n.cradleId).Some? ==>
              NotificationView(n, FindCradle(cradles, n.cradleId).value.name) in Visible(ns, cradles, userId)
    decreases |ns|
  {
    if |ns| > 0 {
      VisibleComplete(ns[1..], cradles, userId);
      var rest := Visible(ns[1..], cradles, userId);
      var r := Visible(ns, cradles, userId);
      var head := ns[0];
      assert ns == [head] + ns[1..];
      if head.userId == userId && FindCradle(cradles, head.cradleId).Some? {
        assert r == [NotificationView(head, FindCradle(cradles, head.cradleId).value.name)] + rest;
      } else {
        assert r == rest;
      }
      forall n | n in ns && n.userId == userId && FindCradle(cradles, n.cradleId).Some?
        ensures NotificationView(n, FindCradle(cradles, n.cradleId).value.name) in r
      {
        if n != head {
          assert n in ns[1..];
        }
      }
    }
  }

  /** The join of a table with one more row at the end lists that row last (if it is visible). */
  lemma {:induction false} VisibleAppend(ns: seq<Notification>, n: Notification, cradles: seq<Cradle>, userId: Id)
    ensures Visible(ns + [n], cradles, userId)
         == Visible(ns, cradles, userId)
            + (if n.userId == userId && FindCradle(cradles, n.cradleId).Some?
               then [NotificationView(n, FindCradle(cradles, n.cradleId).value.name)] else [])
    decreases |ns|
  {
    if |ns| == 0 {
      assert ([] + [n])[1..] == [];
    } else {
      assert (ns + [n])[1..] == ns[1..] + [n];
      VisibleAppend(ns[1..], n, cradles, userId);
    }
  }

  /** `LIMIT 50`. */
  const PageSize: nat := 50

  /** `getNotifications`: the requester's notifications, newest first, at most fifty. */
  function GetNotifications(db: Db, userId: Id, fault: Option<DbError>): (r: Response<seq<NotificationView>>)
    ensures fault.Some? ==> r == Refused(500, fault.value.message)
    ensures fault.None? ==> r.Reply? && r.status == 200
    ensures r.Reply? ==> var all := Visible(db.notifications, db.cradles, userId);
                         && |r.body| <= PageSize
                         && |r.body| == Min(PageSize, |all|)
                         && forall k :: 0 <= k < |r.body| ==> r.body[k] == all[|all| - 1 - k]
    ensures r.Reply? ==> forall k :: 0 <= k < |r.body| ==>
              Joined(r.body[k], db.cradles, userId) && r.body[k].n in db.notifications
  {
    if fault.Some? then Refused(500, fault.value.message)
    else
      VisibleSound(db.notifications, db.cradles, userId);
      Reply(200, Take(Reverse(Visible(db.notifications, db.cradles, userId)), PageSize))
  }

  function SetRead(n: Notification): Notification {
    n.(isRead := true)
  }

  /** The table after `UPDATE notifications SET is_read = TRUE WHERE id = $1 AND user_id = $2`. */
  function MarkRowRead(ns: seq<Notification>, userId: Id, id: Id): (r: seq<Notification>)
    ensures |r| == |ns|
    ensures forall k :: 0 <= k < |ns| ==>
              r[k] == if ns[k].id == id && ns[k].userId == userId then SetRead(ns[k]) else ns[k]
  {
    seq(|ns|, k requires 0 <= k < |ns| => if ns[k].id == id && ns[k].userId == userId then SetRead(ns[k]) else ns[k])
  }

  /** The table after `UPDATE notifications SET is_read = TRUE WHERE user_id = $1 AND is_read = FALSE`. */
  function MarkUserRead(ns: seq<Notification>, userId: Id): (r: seq<Notification>)
    ensures |r| == |ns|
    ensures forall k :: 0 <= k < |ns| ==>
              r[k] == if ns[k].userId == userId && !ns[k].isRead then SetRead(ns[k]) else ns[k]
  {
    seq(|ns|, k requires 0 <= k < |ns| => if ns[k].userId == userId && !ns[k].isRead then SetRead(ns[k]) else ns[k])
  }

  predicate Owns(ns: seq<Notification>, userId: Id, id: Id) {
    exists k :: 0 <= k < |ns| && ns[k].id == id && ns[k].userId == userId
  }

  /** The first matching row, which `RETURNING *` hands back as `updated`. */
  function FirstOwned(ns: seq<Notification>, userId: Id, id: Id): (k: nat)
    requires Owns(ns, userId, id)
    ensures k < |ns| && ns[k].id == id && ns[k].userId == userId
  {
    if ns[0].id == id && ns[0].userId == userId then 0
    else
      assert Owns(ns[1..], userId, id) by {
        var j :| 0 <= j < |ns| && ns[j].id == id && ns[j].userId == userId;
        assert ns[1..][j - 1] == ns[j];
      }
      1 + FirstOwned(ns[1..], userId, id)
  }

  datatype NotificationWrite<T> = NotificationWrite(db: Db, response: Response<T>)

  /** `markAsRead`: only the requester's row with that id becomes read. */
  function MarkAsRead(db: Db, userId: Id, id: Id, fault: Option<DbError>): (r: NotificationWrite<Notification>)
    ensures fault.Some? ==> r == NotificationWrite(db, Refused(500, fault.value.message))
    ensures fault.None? && !Owns(db.notifications, userId, id) ==>
              r == NotificationWrite(db, Refused(404, "Notification not found or unauthorized"))
    ensures r.db.cradles == db.cradles && r.db.samples == db.samples
    ensures |r.db.notifications| == |db.notifications|
    ensures forall k :: 0 <= k < |db.notifications| ==>
              r.db.notifications[k] == db.notifications[k]
              || (&& db.notifications[k].id == id && db.notifications[k].userId == userId
                  && r.db.notifications[k] == db.notifications[k].(isRead := true))
    ensures r.response.Reply? ==> && r.db.notifications == MarkRowRead(db.notifications, userId, id)
                                  && r.response.body.id == id && r.response.body.userId == userId
                                  && r.response.body.isRead
    ensures fault.None? && Owns(db.notifications, userId, id) ==>
              && r.response.Reply? && r.response.status == 200
              && r.db.notifications == MarkRowRead(db.notifications, userId, id)
              && r.response.body == r.db.notifications[FirstOwned(db.notifications, userId, id)]
  {
    if fault.Some? then NotificationWrite(db, Refused(500, fault.value.message))
    else if !Owns(db.notifications, userId, id) then
      NotificationWrite(db, Refused(404, "Notification not found or unauthorized"))
    else
      var k := FirstOwned(db.notifications, userId, id);
      var marked := MarkRowRead(db.notifications, userId, id);
      NotificationWrite(db.(notifications := marked), Reply(200, marked[k]))
  }

  predicate AllRead(ns: seq<Notification>, userId: Id) {
    forall k :: 0 <= k < |ns| && ns[k].userId == userId ==> ns[k].isRead
  }

  /** `markAllAsRead`: afterwards the requester has nothing unread; other users' rows are untouched. */
  function MarkAllAsRead(db: Db, userId: Id, fault: Option<DbError>): (r: NotificationWrite<string>)
    ensures fault.Some? ==> r == NotificationWrite(db, Refused(500, fault.value.message))
    ensures fault.None? ==> r.response == Reply(200, "ok") && AllRead(r.db.notifications, userId)
    ensures r.db.cradles == db.cradles && r.db.samples == db.samples
    ensures |r.db.notifications| == |db.notifications|
    ensures forall k :: 0 <= k < |db.notifications| && db.notifications[k].userId != userId ==>
              r.db.notifications[k] == db.notifications[k]
    ensures forall k :: 0 <= k < |db.notifications| ==>
              r.db.notifications[k] == db.notifications[k] || r.db.notifications[k] == db.notifications[k].(isRead := true)
  {
    if fault.Some? then NotificationWrite(db, Refused(500, fault.value.message))
    else NotificationWrite(db.(notifications := MarkUserRead(db.notifications, userId)), Reply(200, "ok"))
  }

  /** Marking everything read twice is the same as once. */
  lemma MarkAllAsReadIdempotent(db: Db, userId: Id)
    ensures var once := MarkAllAsRead(db, userId, None);
            MarkAllAsRead(once.db, userId, None) == once
  {
    var once := MarkAllAsRead(db, userId, None);
    assert MarkUserRead(once.db.notifications, userId) == once.db.notifications;
  }
}

=== FILE: notifications_page.dfy ===
/** The notifications page: local read-flag updates after the server call, and the
    "Mark all as read" button. */
module NotificationsPage {
  import opened Wrappers
  import opened Seqs
  import opened Tables
  import opened NotificationApi

  function ViewRead(v: NotificationView): NotificationView {
    v.(n := SetRead(v.n))
  }

  /** `prev.map(n => n.id === id ? { ...n, is_read: true } : n)`. */
  function MarkViewRead(list: seq<NotificationView>, id: Id): (r: seq<NotificationView>)
    ensures |r| == |list|
    ensures forall k :: 0 <= k < |list| && list[k].n.id == id ==> r[k] == ViewRead(list[k]) && r[k].n.isRead
    ensures forall k :: 0 <= k < |list| && list[k].n.id != id ==> r[k] == list[k]
  {
    seq(|list|, k requires 0 <= k < |list| => if list[k].n.id == id then ViewRead(list[k]) else list[k])
  }

  /** `prev.map(n => ({ ...n, is_read: true }))`. */
  function MarkAllViewsRead(list: seq<NotificationView>): (r: seq<NotificationView>)
    ensures |r| == |list|
    ensures forall k :: 0 <= k < |list| ==> r[k] == ViewRead(list[k]) && r[k].n.isRead
  {
    seq(|list|, k requires 0 <= k < |list| => ViewRead(list[k]))
  }

  /** `markAsRead`: the local list changes only when the server call did not throw. */
  function ClientMarkAsRead(list: seq<NotificationView>, id: Id, serverOk: bool): (r: seq<NotificationView>)
    ensures !serverOk ==> r == list
    ensures serverOk ==> r == MarkViewRead(list, id)
  {
    if serverOk then MarkViewRead(list, id) else list
  }

  /** `markAllRead`: the local list changes only when the server call did not throw. */
  function ClientMarkAllRead(list: seq<NotificationView>, serverOk: bool): (r: seq<NotificationView>)
    ensures !serverOk ==> r == list
    ensures serverOk ==> r == MarkAllViewsRead(list)
  {
    if serverOk then MarkAllViewsRead(list) else list
  }

  /** `notifications.some(n => !n.is_read)`: whether "Mark all as read" is shown. */
  predicate ShowMarkAll(list: seq<NotificationView>) {
    exists k :: 0 <= k < |list| && !list[k].n.isRead
  }

  /** After marking all read the button disappears, and marking again changes nothing. */
  lemma MarkAllViewsReadSettles(list: seq<NotificationView>)
    ensures !ShowMarkAll(MarkAllViewsRead(list))
    ensures MarkAllViewsRead(MarkAllViewsRead(list)) == MarkAllViewsRead(list)
  {
  }

  /** The view contributed by one row: itself joined with its cradle, or nothing. */
  function HeadView(n: Notification, cradles: seq<Cradle>, userId: Id): seq<NotificationView> {
    if n.userId == userId && FindCradle(cradles, n.cradleId).Some? then
      [NotificationView(n, FindCradle(cradles, n.cradleId).value.name)]
    else []
  }

  lemma VisibleUnfold(ns: seq<Notification>, cradles: seq<Cradle>, userId: Id)
    requires |ns| > 0
    ensures Visible(ns, cradles, userId) == HeadView(ns[0], cradles, userId) + Visible(ns[1..], cradles, userId)
  {
  }

  lemma MarkViewReadAppend(a: seq<NotificationView>, b: seq<NotificationView>, id: Id)
    ensures MarkViewRead(a + b, id) == MarkViewRead(a, id) + MarkViewRead(b, id)
  {
    assert forall k :: 0 <= k < |a + b| ==> MarkViewRead(a + b, id)[k] == (MarkViewRead(a, id) + MarkViewRead(b, id))[k];
  }

  lemma MarkAllViewsReadAppend(a: seq<NotificationView>, b: seq<NotificationView>)
    ensures MarkAllViewsRead(a + b) == MarkAllViewsRead(a) + MarkAllViewsRead(b)
  {
    assert forall k :: 0 <= k < |a + b| ==> MarkAllViewsRead(a + b)[k] == (MarkAllViewsRead(a) + MarkAllViewsRead(b))[k];
  }

  lemma MarkRowReadTail(ns: seq<Notification>, userId: Id, id: Id)
    requires |ns| > 0
    ensures MarkRowRead(ns, userId, id)[1..] == MarkRowRead(ns[1..], userId, id)
  {
  }

  lemma MarkUserReadTail(ns: seq<Notification>, userId: Id)
    requires |ns| > 0
    ensures MarkUserRead(ns, userId)[1..] == MarkUserRead(ns[1..], userId)
  {
  }

  lemma {:induction false} VisibleAfterMarkRowRead(ns: seq<Notification>, cradles: seq<Cradle>, userId: Id, id: Id)
    ensures Visible(MarkRowRead(ns, userId, id), cradles, userId) == MarkViewRead(Visible(ns, cradles, userId), id)
    decreases |ns|
  {
    if |ns| > 0 {
      var marked := MarkRowRead(ns, userId, id);
      MarkRowReadTail(ns, userId, id);
      VisibleAfterMarkRowRead(ns[1..], cradles, userId, id);
      VisibleUnfold(ns, cradles, userId);
      VisibleUnfold(marked, cradles, userId);
      assert HeadView(marked[0], cradles, userId) == MarkViewRead(HeadView(ns[0], cradles, userId), id);
      MarkViewReadAppend(HeadView(ns[0], cradles, userId), Visible(ns[1..], cradles, userId), id);
    }
  }

  lemma {:induction false} VisibleAfterMarkUserRead(ns: seq<Notification>, cradles: seq<Cradle>, userId: Id)
    ensures Visible(MarkUserRead(ns, userId), cradles, userId) == MarkAllViewsRead(Visible(ns, cradles, userId))
    decreases |ns|
  {
    if |ns| > 0 {
      var marked := MarkUserRead(ns, userId);
      MarkUserReadTail(ns, userId);
      VisibleAfterMarkUserRead(ns[1..], cradles, userId);
      VisibleUnfold(ns, cradles, userId);
      VisibleUnfold(marked, cradles, userId);
      assert HeadView(marked[0], cradles, userId) == MarkAllViewsRead(HeadView(ns[0], cradles, userId));
      MarkAllViewsReadAppend(HeadView(ns[0], cradles, userId), Visible(ns[1..], cradles, userId));
    }
  }

  /** The page's local update after a successful `markAsRead` agrees with what re-fetching the
      list from the server would show. */
  lemma LocalMarkMatchesServer(db: Db, userId: Id, id: Id)
    ensures MarkViewRead(GetNotifications(db, userId, None).body, id)
         == GetNotifications(MarkAsRead(db, userId, id, None).db, userId, None).body
  {
    var all := Visible(db.notifications, db.cradles, userId);
    var page := GetNotifications(db, userId, None).body;
    var after := MarkAsRead(db, userId, id, None).db;
    if Owns(db.notifications, userId, id) {
      VisibleAfterMarkRowRead(db.notifications, db.cradles, userId, id);
      assert MarkViewRead(page, id) == Take(Reverse(MarkViewRead(all, id)), PageSize);
    } else {
      assert forall k :: 0 <= k < |page| ==> page[k].n.id != id by {
        forall k | 0 <= k < |page|
          ensures page[k].n.id != id
        {
          var j :| 0 <= j < |db.notifications| && db.notifications[j] == page[k].n;
        }
      }
      assert MarkViewRead(page, id) == page;
    }
  }

  /** The same for `markAllAsRead`. */
  lemma LocalMarkAllMatchesServer(db: Db, userId: Id)
    ensures MarkAllViewsRead(GetNotifications(db, userId, None).body)
         == GetNotifications(MarkAllAsRead(db, userId, None).db, userId, None).body
  {
    var all := Visible(db.notifications, db.cradles, userId);
    VisibleAfterMarkUserRead(db.notifications, db.cradles, userId);
    assert MarkAllViewsRead(GetNotifications(db, userId, None).body) == Take(Reverse(MarkAllViewsRead(all)), PageSize);
  }
}

=== FILE: security_popup.dfy ===
/** The security popup: OTP verification unlocks the password and account-deletion panel. Each
    request is split into the press that starts it and the response that finishes it, so the
    `loading` flag and the disabled buttons are visible in the model. */
module SecurityPopup {
  import opened Wrappers
  import opened Seqs
  import opened Text

  datatype Step = Verify | Manage
  datatype Tab = PasswordTab | DeleteTab

  datatype Popup = Popup(step: Step, otp: string, token: Option<string>, loading: bool,
                         error: string, success: string, tab: Tab,
                         newPassword: string, confirmPassword: string)

  /** The requests the popup sends to the server. */
  datatype Request =
    | SendOtpRequest
    | VerifyOtpRequest(otp: string)
    | ChangePasswordRequest(newPassword: string, token: Option<string>)
    | DeleteAccountRequest(token: Option<string>)

  datatype Outcome = Outcome(popup: Popup, sent: Option<Request>)

  const OtpLength: nat := 6
  const MinPasswordLength: nat := 6

  /** The effect run whenever the popup opens. The tab and the loading flag are not reset. */
  function Open(s: Popup): (r: Popup)
    ensures r.step == Verify && r.otp == "" && r.token == None
    ensures r.error == "" && r.success == "" && r.newPassword == "" && r.confirmPassword == ""
    ensures r.tab == s.tab && r.loading == s.loading
  {
    s.(step := Verify, otp := "", error := "", success := "", token := None,
       newPassword := "", confirmPassword := "")
  }

  /** The OTP input: `maxLength={6}` keeps the longest prefix of what is typed that fits in six
      UTF-16 code units. */
  function TypeOtp(s: Popup, typed: string): (r: Popup)
    ensures |r.otp| <= |typed| && r.otp == typed[..|r.otp|] && JsLength(r.otp) <= OtpLength
    ensures |r.otp| < |typed| ==> JsLength(typed[..|r.otp| + 1]) > OtpLength
    ensures r == s.(otp := r.otp)
  {
    s.(otp := JsTruncate(typed, OtpLength))
  }

  /** `disabled={loading || otp.length < 6}` on "Verify & Proceed". */
  predicate OtpSubmitEnabled(s: Popup) {
    !s.loading && JsLength(s.otp) >= OtpLength
  }

  /** Pressing "Send OTP" (`disabled={loading}`). */
  function PressSendOtp(s: Popup): (r: Outcome)
    ensures s.loading ==> r == Outcome(s, None)
    ensures !s.loading ==> r.sent == Some(SendOtpRequest) && r.popup == s.(loading := true, error := "")
  {
    if s.loading then Outcome(s, None) else Outcome(s.(loading := true, error := ""), Some(SendOtpRequest))
  }

  /** A server response leaves the OTP, the tab and the password fields as they were: the
      response handlers set only the messages, the loading flag and, on verification, the step
      and the token. */
  predicate InputsKept(r: Popup, s: Popup) {
    r.otp == s.otp && r.tab == s.tab && r.newPassword == s.newPassword && r.confirmPassword == s.confirmPassword
  }

  /** The send-OTP response: a confirmation naming the account's email, or the error. */
  function OtpSent(s: Popup, email: string, failure: Option<string>): (r: Popup)
    ensures !r.loading && r.step == s.step && r.token == s.token && InputsKept(r, s)
    ensures failure.None? ==> r.success == "OTP sent to " + email && r.error == s.error
    ensures failure.Some? ==> r.error == failure.value && r.success == s.success
  {
    match failure
    case None => s.(success := "OTP sent to " + email, loading := false)
    case Some(message) => s.(error := message, loading := false)
  }

  /** Submitting the OTP form: a request only when the button is enabled. */
  function SubmitOtp(s: Popup): (r: Outcome)
    ensures r.sent.Some? <==> OtpSubmitEnabled(s)
    ensures r.sent.Some? ==> r.sent.value == VerifyOtpRequest(s.otp) && JsLength(s.otp) >= OtpLength
                             && r.popup == s.(loading := true, error := "")
    ensures r.sent.None? ==> r.popup == s
  {
    if OtpSubmitEnabled(s) then Outcome(s.(loading := true, error := ""), Some(VerifyOtpRequest(s.otp)))
    else Outcome(s, None)
  }

  /** The verify-OTP response: `Ok` carries the response's `securityToken` field, which may be absent. */
  datatype VerifyReply = Verified(securityToken: Option<string>) | VerifyFailed(message: string)

  function OtpVerified(s: Popup, reply: VerifyReply): (r: Popup)
    ensures !r.loading && InputsKept(r, s)
    ensures reply.Verified? ==> r.step == Manage && r.token == reply.securityToken && r.success == "" && r.error == s.error
    ensures reply.VerifyFailed? ==> && r.step == s.step && r.token == s.token
                                    && r.error == reply.message && r.success == s.success
  {
    match reply
    case Verified(token) => s.(token := token, step := Manage, success := "", loading := false)
    case VerifyFailed(message) => s.(error := message, loading := false)
  }

  /** Choosing a tab clears both messages. */
  function SelectTab(s: Popup, tab: Tab): (r: Popup)
    ensures r.tab == tab && r.error == "" && r.success == ""
    ensures r == s.(tab := tab, error := "", success := "")
  {
    s.(tab := tab, error := "", success := "")
  }

  /** `handleChangePassword`'s checks: the mismatch is reported before the length. */
  function ValidatePassword(newPassword: string, confirmPassword: string): (problem: Option<string>)
    ensures problem.None? <==> newPassword == confirmPassword && JsLength(newPassword) >= MinPasswordLength
    ensures newPassword != confirmPassword ==> problem == Some("Passwords do not match")
    ensures newPassword == confirmPassword && JsLength(newPassword) < MinPasswordLength ==>
              problem == Some("Password must be at least 6 characters")
  {
    if newPassword != confirmPassword then Some("Passwords do not match")
    else if JsLength(newPassword) < MinPasswordLength then Some("Password must be at least 6 characters")
    else None
  }

  /** The browser's constraint validation of the password form: the new password is `required`
      with `minLength={6}`, and the confirmation is `required`. A form that fails it is not
      submitted, so `handleChangePassword` does not run. */
  predicate FormAccepts(s: Popup) {
    JsLength(s.newPassword) >= MinPasswordLength && |s.confirmPassword| > 0
  }

  /** Submitting the password form (`disabled={loading}`): the browser's own checks come first,
      then the handler's; a failed handler check only sets the error. */
  function SubmitPassword(s: Popup): (r: Outcome)
    ensures r.sent.Some? <==> !s.loading && s.newPassword == s.confirmPassword && JsLength(s.newPassword) >= MinPasswordLength
    ensures r.sent.Some? ==> && r.sent.value == ChangePasswordRequest(s.newPassword, s.token)
                             && r.popup == s.(loading := true, error := "")
    ensures s.loading || !FormAccepts(s) ==> r == Outcome(s, None)
    ensures !s.loading && FormAccepts(s) && s.newPassword != s.confirmPassword ==>
              r == Outcome(s.(error := "Passwords do not match"), None)
  {
    if s.loading || !FormAccepts(s) then Outcome(s, None)
    else
      match ValidatePassword(s.newPassword, s.confirmPassword)
      case Some(problem) => Outcome(s.(error := problem), None)
      case None => Outcome(s.(loading := true, error := ""), Some(ChangePasswordRequest(s.newPassword, s.token)))
  }

  /** Because the browser refuses a new password shorter than six characters, the handler's own
      length message can never be shown by submitting the form. */
  lemma LengthMessageNeverShown(s: Popup)
    ensures SubmitPassword(s).popup.error == "Password must be at least 6 characters" ==>
              s.error == "Password must be at least 6 characters"
  {
  }

  /** Length is counted in UTF-16 code units: three characters outside the Basic Multilingual
      Plane make a six-unit password, which the form accepts and sends. */
  lemma AstralPasswordIsLongEnough(s: Popup)
    requires !s.loading
    requires s.newPassword == "\U{1F600}\U{1F600}\U{1F600}" && s.confirmPassword == s.newPassword
    ensures FormAccepts(s)
    ensures SubmitPassword(s).sent == Some(ChangePasswordRequest(s.newPassword, s.token))
  {
    var c := '\U{1F600}';
    assert CodeUnits(c) == 2;
    assert JsLength([c]) == 2 by { assert [c][1..] == []; }
    assert JsLength([c, c]) == 4 by { assert [c, c][1..] == [c]; }
    assert s.newPassword == [c, c, c] && [c, c, c][1..] == [c, c];
  }

  const PasswordChangedMessage := "Password changed successfully. Please login again."

  /** The change-password response; after success the page logs out two seconds later. */
  function PasswordChanged(s: Popup, failure: Option<string>): (r: Popup)
    ensures !r.loading && r.step == s.step && r.token == s.token && InputsKept(r, s)
    ensures failure.None? ==> r.success == PasswordChangedMessage && r.error == s.error
    ensures failure.Some? ==> r.error == failure.value && r.success == s.success
  {
    match failure
    case None => s.(success := PasswordChangedMessage, loading := false)
    case Some(message) => s.(error := message, loading := false)
  }

  /** "Yes, Delete My Account": nothing unless the browser's confirmation is accepted. */
  function PressDelete(s: Popup, confirmed: bool): (r: Outcome)
    ensures r.sent.Some? <==> !s.loading && confirmed
    ensures r.sent.Some? ==> r.sent.value == DeleteAccountRequest(s.token) && r.popup == s.(loading := true, error := "")
    ensures r.sent.None? ==> r.popup == s
  {
    if s.loading || !confirmed then Outcome(s, None)
    else Outcome(s.(loading := true, error := ""), Some(DeleteAccountRequest(s.token)))
  }

  /** A failed deletion shows the error (success logs out and leaves the popup). */
  function DeleteFailed(s: Popup, message: string): (r: Popup)
    ensures !r.loading && r.error == message && r.step == s.step && r.token == s.token
    ensures r.success == s.success && InputsKept(r, s)
  {
    s.(error := message, loading := false)
  }

  /** What can happen to the popup. Controls that are not rendered in the current step are ignored. */
  datatype Event =
    | Opened
    | OtpTyped(typed: string)
    | SendOtpPressed
    | SendOtpAnswered(email: string, failure: Option<string>)
    | OtpSubmitted
    | VerifyAnswered(reply: VerifyReply)
    | TabSelected(tab: Tab)
    | PasswordsTyped(newPassword: string, confirmPassword: string)
    | PasswordSubmitted
    | PasswordAnswered(failure: Option<string>)
    | DeletePressed(confirmed: bool)
    | DeleteFailedWith(message: string)

  function Dispatch(s: Popup, e: Event): (r: Outcome)
    ensures r.sent.Some? && r.sent.value.ChangePasswordRequest? ==>
              && s.step == Manage && s.tab == PasswordTab
              && r.sent.value.newPassword == s.newPassword == s.confirmPassword
              && JsLength(r.sent.value.newPassword) >= MinPasswordLength
    ensures r.sent.Some? && r.sent.value.DeleteAccountRequest? ==> s.step == Manage && s.tab == DeleteTab
    ensures r.sent.Some? && r.sent.value.VerifyOtpRequest? ==> s.step == Verify && JsLength(r.sent.value.otp) >= OtpLength
    ensures r.sent.Some? ==> !s.loading && r.popup.loading
  {
    match e
    case Opened => Outcome(Open(s), None)
    case OtpTyped(typed) => Outcome(if s.step == Verify then TypeOtp(s, typed) else s, None)
    case SendOtpPressed => if s.step == Verify then PressSendOtp(s) else Outcome(s, None)
    case SendOtpAnswered(email, failure) => Outcome(OtpSent(s, email, failure), None)
    case OtpSubmitted => if s.step == Verify then SubmitOtp(s) else Outcome(s, None)
    case VerifyAnswered(reply) => Outcome(OtpVerified(s, reply), None)
    case TabSelected(tab) => Outcome(if s.step == Manage then SelectTab(s, tab) else s, None)
    case PasswordsTyped(p, c) =>
      Outcome(if s.step == Manage && s.tab == PasswordTab then s.(newPassword := p, confirmPassword := c) else s, None)
    case PasswordSubmitted =>
      if s.step == Manage && s.tab == PasswordTab then SubmitPassword(s) else Outcome(s, None)
    case PasswordAnswered(failure) => Outcome(PasswordChanged(s, failure), None)
    case DeletePressed(confirmed) =>
      if s.step == Manage && s.tab == DeleteTab then PressDelete(s, confirmed) else Outcome(s, None)
    case DeleteFailedWith(message) => Outcome(DeleteFailed(s, message), None)
  }

  /** The popup after a sequence of events, with every request sent, in order. */
  function Run(s: Popup, events: seq<Event>): (r: (Popup, seq<Request>))
    ensures |r.1| <= |events|
    decreases |events|
  {
    if |events| == 0 then (s, [])
    else
      var step := Dispatch(s, events[0]);
      var rest := Run(step.popup, events[1..]);
      (rest.0, (if step.sent.Some? then [step.sent.value] else []) + rest.1)
  }

  /** Reference for the step: the popup is unlocked when, looking back from the latest event, a
      successful verification comes before any reopening. */
  predicate Unlocked(s: Popup, events: seq<Event>)
    decreases |events|
  {
    if |events| == 0 then s.step == Manage
    else
      var last := events[|events| - 1];
      if last.Opened? then false
      else if last.VerifyAnswered? && last.reply.Verified? then true
      else Unlocked(s, events[..|events| - 1])
  }

  lemma {:induction false} RunAppend(s: Popup, events: seq<Event>, e: Event)
    ensures Run(s, events + [e]).0 == Dispatch(Run(s, events).0, e).popup
    decreases |events|
  {
    if |events| == 0 {
      assert events + [e] == [e];
    } else {
      assert (events + [e])[1..] == events[1..] + [e];
      RunAppend(Dispatch(s, events[0]).popup, events[1..], e);
    }
  }

  /** Only a verification answer or a reopening changes the step. */
  lemma DispatchStep(s: Popup, e: Event)
    ensures var r := Dispatch(s, e).popup;
            && (e.Opened? ==> r.step == Verify)
            && (e.VerifyAnswered? && e.reply.Verified? ==> r.step == Manage)
            && (!e.Opened? && !(e.VerifyAnswered? && e.reply.Verified?) ==> r.step == s.step)
  {
  }

  /** The manage panel is shown exactly when the latest verification success is newer than the
      latest opening. */
  lemma {:induction false} ManageIffUnlocked(s: Popup, events: seq<Event>)
    ensures Run(s, events).0.step == Manage <==> Unlocked(s, events)
    decreases |events|
  {
    if |events| > 0 {
      var init := events[..|events| - 1];
      var last := events[|events| - 1];
      assert events == init + [last];
      RunAppend(s, init, last);
      ManageIffUnlocked(s, init);
      DispatchStep(Run(s, init).0, last);
    }
  }

  /** Opening then typing keeps the OTP within six characters through any run. */
  lemma {:induction false} OtpStaysShort(s: Popup, events: seq<Event>)
    requires JsLength(s.otp) <= OtpLength
    ensures JsLength(Run(s, events).0.otp) <= OtpLength
    decreases |events|
  {
    if |events| > 0 {
      OtpStaysShort(Dispatch(s, events[0]).popup, events[1..]);
    }
  }

  /** Across any run, no password change is ever requested with a password shorter than six
      characters, and no OTP is sent for verification before six characters were typed. */
  lemma {:induction false} RunRequestsValid(s: Popup, events: seq<Event>)
    ensures forall k :: 0 <= k < |Run(s, events).1| ==>
              var q := Run(s, events).1[k];
              && (q.ChangePasswordRequest? ==> JsLength(q.newPassword) >= MinPasswordLength)
              && (q.VerifyOtpRequest? ==> JsLength(q.otp) >= OtpLength)
    decreases |events|
  {
    if |events| > 0 {
      var step := Dispatch(s, events[0]);
      RunRequestsValid(step.popup, events[1..]);
      var head: seq<Request> := if step.sent.Some? then [step.sent.value] else [];
      var rest := Run(step.popup, events[1..]).1;
      assert Run(s, events).1 == head + rest;
      assert forall k :: |head| <= k < |head + rest| ==> (head + rest)[k] == rest[k - |head|];
    }
  }

  /** A mismatch is reported even when the password is also too short. */
  lemma MismatchReportedFirst(newPassword: string, confirmPassword: string)
    requires newPassword != confirmPassword && JsLength(newPassword) < MinPasswordLength
    ensures ValidatePassword(newPassword, confirmPassword) == Some("Passwords do not match")
  {
  }
}

=== FILE: seqs.dfy ===
/** Small sequence utilities shared by the server and client models. */
module Seqs {

  function Min(a: nat, b: nat): nat {
    if a <= b then a else b
  }

  /** The elements of `s` in the opposite order (JavaScript `Array.prototype.reverse`). */
  function Reverse<T>(s: seq<T>): (r: seq<T>)
    ensures |r| == |s|
    ensures forall k :: 0 <= k < |s| ==> r[k] == s[|s| - 1 - k]
  {
    seq(|s|, k requires 0 <= k < |s| => s[|s| - 1 - k])
  }

  /** The first `n` elements of `s`, or all of `s` when it is shorter (SQL `LIMIT n`). */
  function Take<T>(s: seq<T>, n: nat): (r: seq<T>)
    ensures |r| == Min(n, |s|)
    ensures forall k :: 0 <= k < |r| ==> r[k] == s[k]
  {
    s[..Min(n, |s|)]
  }

  lemma ReverseReverse<T>(s: seq<T>)
    ensures Reverse(Reverse(s)) == s
  {
  }

  /** Appending at the end of a sequence is prepending at the front of its reverse. */
  lemma ReverseAppend<T>(s: seq<T>, x: T)
    ensures Reverse(s + [x]) == [x] + Reverse(s)
  {
  }

  /** `a` occurs in `b` in order, possibly with other elements in between: what a `DELETE ...
      WHERE` leaves of a table whose order is insertion order. */
  predicate Subsequence<T(==)>(a: seq<T>, b: seq<T>)
    decreases |b|
  {
    if |a| == 0 then true
    else if |b| == 0 then false
    else if a[0] == b[0] then Subsequence(a[1..], b[1..])
    else Subsequence(a, b[1..])
  }

  /** An extra element in front of the larger sequence keeps the embedding. */
  lemma {:induction false} SubsequenceSkip<T>(a: seq<T>, x: T, b: seq<T>)
    requires Subsequence(a, b)
    ensures Subsequence(a, [x] + b)
    decreases |b|, 1
  {
    assert ([x] + b)[1..] == b;
    if |a| > 0 && a[0] == x {
      SubsequenceTail(a, b);
    }
  }

  /** Dropping the first element of the smaller sequence keeps the embedding. */
  lemma {:induction false} SubsequenceTail<T>(a: seq<T>, b: seq<T>)
    requires |a| > 0 && Subsequence(a, b)
    ensures Subsequence(a[1..], b)
    decreases |b|, 0
  {
    if a[0] == b[0] {
      if |a[1..]| > 0 {
        SubsequenceSkip(a[1..], b[0], b[1..]);
        assert [b[0]] + b[1..] == b;
      }
    } else {
      SubsequenceTail(a, b[1..]);
      if |a[1..]| > 0 {
        SubsequenceSkip(a[1..], b[0], b[1..]);
        assert [b[0]] + b[1..] == b;
      }
    }
  }
}

=== FILE: streak.dfy ===
/** The continuous-anomaly transition rule of the ingestion handler, and its meaning over a
    cradle's stream of `anomaly_overall` flags (oldest first, one element per ingested sample). */
module Streak {
  import opened Seqs

  /** Rows read back after an anomalous insert (`LIMIT 7`). */
  const HistoryLimit: nat := 7
  /** Anomalies in a row that make a notification-worthy streak. */
  const Threshold: nat := 6

  predicate AllTrue(s: seq<bool>) {
    forall k :: 0 <= k < |s| ==> s[k]
  }

  /** The rule applied to the newest-first `anomaly_overall` column just read back:
      the six newest are anomalous and the seventh is absent or normal. */
  function TransitionDetected(history: seq<bool>): (fire: bool)
    ensures |history| < Threshold ==> !fire
    ensures (exists k :: 0 <= k < Threshold && k < |history| && !history[k]) ==> !fire
    ensures |history| >= HistoryLimit && AllTrue(history[..HistoryLimit]) ==> !fire
    ensures (|history| >= Threshold && AllTrue(history[..Threshold])
             && (|history| == Threshold || !history[Threshold])) ==> fire
  {
    var recent := history[..Min(Threshold, |history|)];
    var allRecentAreAnomalies := |recent| == Threshold && AllTrue(recent);
    allRecentAreAnomalies && (|history| <= Threshold || !history[Threshold])
  }

  /** The window the handler reads after appending the newest flag of `stream`. */
  function LatestWindow(stream: seq<bool>): seq<bool> {
    Take(Reverse(stream), HistoryLimit)
  }

  /** Whether the handler notifies right after the last element of `stream` was ingested:
      it only looks at history when that sample is itself anomalous. */
  predicate FiresOn(stream: seq<bool>) {
    |stream| > 0 && stream[|stream| - 1] && TransitionDetected(LatestWindow(stream))
  }

  /** Whether the handler notifies when the sample at index `i` is ingested. */
  predicate FiresAt(stream: seq<bool>, i: nat)
    requires i < |stream|
  {
    FiresOn(stream[..i + 1])
  }

  /** Length of the maximal run of anomalous flags that ends at the newest element. */
  function RunLength(stream: seq<bool>): (n: nat)
    ensures n <= |stream|
  {
    if |stream| == 0 || !stream[|stream| - 1] then 0 else 1 + RunLength(stream[..|stream| - 1])
  }

  /** The run is at least `k` long exactly when the newest `k` flags are all anomalous. */
  lemma {:induction false} RunLengthAtLeast(stream: seq<bool>, k: nat)
    ensures RunLength(stream) >= k <==> k <= |stream| && forall j :: |stream| - k <= j < |stream| ==> stream[j]
    decreases |stream|
  {
    if k > 0 && |stream| > 0 && stream[|stream| - 1] {
      var init := stream[..|stream| - 1];
      RunLengthAtLeast(init, k - 1);
      assert forall j :: 0 <= j < |init| ==> init[j] == stream[j];
    }
  }

  /** Headline property: a notification fires exactly when the run ending at the new sample has
      length exactly six. */
  lemma FiresIffRunOfSix(stream: seq<bool>)
    ensures FiresOn(stream) <==> RunLength(stream) == Threshold
  {
    var w := LatestWindow(stream);
    var n := |stream|;
    RunLengthAtLeast(stream, Threshold);
    RunLengthAtLeast(stream, HistoryLimit);
    if FiresOn(stream) {
      assert forall j :: n - Threshold <= j < n ==> stream[j] by {
        forall j | n - Threshold <= j < n
          ensures stream[j]
        {
          assert w[..Threshold][n - 1 - j] == stream[j];
        }
      }
      if n > Threshold {
        assert w[Threshold] == stream[n - 1 - Threshold];
      }
    }
    if RunLength(stream) == Threshold {
      assert stream[n - 1];
      assert AllTrue(w[..Threshold]) by {
        forall k | 0 <= k < Threshold
          ensures w[..Threshold][k]
        {
          assert w[k] == stream[n - 1 - k];
        }
      }
      if n > Threshold {
        assert !stream[n - 1 - Threshold];
        assert !w[Threshold];
      }
    }
  }

  /** At most one notification per run: two firing steps are separated by a normal sample. */
  lemma AtMostOncePerRun(stream: seq<bool>, i: nat, j: nat)
    requires i < j < |stream|
    requires forall k :: i <= k <= j ==> stream[k]
    ensures !(FiresAt(stream, i) && FiresAt(stream, j))
  {
    var si := stream[..i + 1];
    var sj := stream[..j + 1];
    if FiresAt(stream, i) {
      FiresIffRunOfSix(si);
      RunLengthAtLeast(si, Threshold);
      RunLengthAtLeast(sj, HistoryLimit);
      assert forall k :: |sj| - HistoryLimit <= k < |sj| ==> sj[k] by {
        forall k | |sj| - HistoryLimit <= k < |sj|
          ensures sj[k]
        {
          if k <= i {
            assert si[k] == sj[k];
          }
        }
      }
      FiresIffRunOfSix(sj);
    }
  }

  /** Every run that reaches six anomalies fires, at its sixth sample. */
  lemma LongRunFiresAtSixth(stream: seq<bool>, j: nat)
    requires j < |stream|
    requires RunLength(stream[..j + 1]) >= Threshold
    ensures var i := j + 1 - RunLength(stream[..j + 1]) + Threshold - 1;
            i <= j && FiresAt(stream, i)
  {
    var sj := stream[..j + 1];
    var len := RunLength(sj);
    var i := j + 1 - len + Threshold - 1;
    var si := stream[..i + 1];
    RunLengthAtLeast(sj, len);
    RunLengthAtLeast(sj, len + 1);
    RunLengthAtLeast(si, Threshold);
    RunLengthAtLeast(si, HistoryLimit);
    assert forall k :: |si| - Threshold <= k < |si| ==> si[k] by {
      forall k | |si| - Threshold <= k < |si|
        ensures si[k]
      {
        assert si[k] == sj[k];
      }
    }
    if |si| >= HistoryLimit {
      assert si[|si| - HistoryLimit] == sj[|sj| - len - 1];
    }
    FiresIffRunOfSix(si);
  }

  /** The notification decision after each step of a stream. */
  function FireTrace(stream: seq<bool>): (r: seq<bool>)
    ensures |r| == |stream|
    ensures forall i :: 0 <= i < |stream| ==> r[i] == FiresAt(stream, i)
  {
    seq(|stream|, i requires 0 <= i < |stream| => FiresAt(stream, i))
  }

  /** Each entry of the trace is set exactly when the anomalous run ending at that sample is
      six long. */
  lemma FireTraceMeaning(stream: seq<bool>)
    ensures forall i :: 0 <= i < |stream| ==> (FireTrace(stream)[i] <==> RunLength(stream[..i + 1]) == Threshold)
  {
    forall i | 0 <= i < |stream|
      ensures FireTrace(stream)[i] <==> RunLength(stream[..i + 1]) == Threshold
    {
      FiresIffRunOfSix(stream[..i + 1]);
    }
  }

  /** Five anomalies fire nothing, the sixth fires, the seventh does not; a normal sample resets
      the count and the next anomaly starts again at one. */
  lemma SixthAnomalyFiresOnce()
    ensures FireTrace([true, true, true, true, true, true, true, false, true])
         == [false, false, false, false, false, true, false, false, false]
  {
    var s := [true, true, true, true, true, true, true, false, true];
    forall i | 0 <= i < |s|
      ensures FiresAt(s, i) == (i == 5)
    {
      FiresIffRunOfSix(s[..i + 1]);
      if i < 6 {
        RunLengthAtLeast(s[..i + 1], i + 1);
        RunLengthAtLeast(s[..i + 1], i + 2);
      } else if i == 6 {
        RunLengthAtLeast(s[..i + 1], 7);
      } else if i == 7 {
        assert RunLength(s[..i + 1]) == 0;
      } else {
        assert s[..i + 1][..8][7] == false;
        assert RunLength(s[..i + 1]) == 1;
      }
    }
  }
}

=== FILE: tables.dfy ===
/** The relational tables the server works on (`cradles`, `cradle_data`, `notifications`),
    modelled as sequences of records in insertion order. Rows are appended one at a time and
    the database clock is monotone, so "ORDER BY created_at DESC" is the reverse of insertion
    order. */
module Tables {
  import opened Wrappers
  import opened Seqs

  /** Database keys are positive (serial) integers, so a present id is always truthy. */
  type Id = x: int | x > 0 witness 1

  /** The five anomaly columns of a `cradle_data` row. */
  datatype Flags = Flags(overall: bool, temperature: bool, humidity: bool, motion: bool, noise: bool)

  /** The part of a device's reading the model keeps (sensor values in floating point are left out). */
  datatype Reading = Reading(uptimeSeconds: int, motionState: Option<string>, anomaly: Flags)

  /** One `cradle_data` row. */
  datatype SampleRow = SampleRow(cradleId: Id, reading: Reading)

  /** One `cradles` row; `babyName` and `location` are nullable columns. */
  datatype Cradle = Cradle(id: Id, userId: Id, name: string, babyName: Option<string>,
                           location: Option<string>, deviceKey: string)

  /** One `notifications` row. */
  datatype Notification = Notification(id: Id, userId: Id, cradleId: Id, kind: string, alertKey: string,
                                       title: string, message: string, isRead: bool)

  datatype Db = Db(cradles: seq<Cradle>, samples: seq<SampleRow>, notifications: seq<Notification>)

  /** The `cradle_data` rows of one cradle, oldest first. */
  function SamplesOf(samples: seq<SampleRow>, cradleId: Id): (r: seq<SampleRow>)
    ensures |r| <= |samples|
    ensures forall k :: 0 <= k < |r| ==> r[k].cradleId == cradleId && r[k] in samples
    ensures forall x :: x in samples && x.cradleId == cradleId ==> x in r
  {
    if |samples| == 0 then []
    else
      var last := samples[|samples| - 1];
      SamplesOf(samples[..|samples| - 1], cradleId) + (if last.cradleId == cradleId then [last] else [])
  }

  /** Appending a row extends exactly the stream of the row's own cradle. */
  lemma SamplesOfAppend(samples: seq<SampleRow>, x: SampleRow, cradleId: Id)
    ensures SamplesOf(samples + [x], cradleId)
         == SamplesOf(samples, cradleId) + (if x.cradleId == cradleId then [x] else [])
  {
    assert (samples + [x])[..|samples|] == samples;
  }

  /** `SELECT ... WHERE cradle_id = $1 ORDER BY created_at DESC`. */
  function NewestFirst(samples: seq<SampleRow>, cradleId: Id): seq<SampleRow> {
    Reverse(SamplesOf(samples, cradleId))
  }

  /** The `anomaly_overall` column of a list of rows. */
  function OverallColumn(rows: seq<SampleRow>): (r: seq<bool>)
    ensures |r| == |rows|
    ensures forall k :: 0 <= k < |rows| ==> r[k] == rows[k].reading.anomaly.overall
  {
    seq(|rows|, k requires 0 <= k < |rows| => rows[k].reading.anomaly.overall)
  }

  /** `SELECT ... ORDER BY created_at DESC LIMIT 1`: the newest row of a cradle, if any. */
  function LatestSample(samples: seq<SampleRow>, cradleId: Id): (r: Option<SampleRow>)
    ensures r.None? <==> forall x :: x in samples ==> x.cradleId != cradleId
    ensures r.Some? ==> r.value.cradleId == cradleId && r.value in samples
    ensures r.Some? ==> |NewestFirst(samples, cradleId)| > 0 && r.value == NewestFirst(samples, cradleId)[0]
  {
    var rows := SamplesOf(samples, cradleId);
    if |rows| == 0 then None else Some(rows[|rows| - 1])
  }

  /** The latest sample is the cradle's last row in insertion (that is, time) order: no row of
      that cradle was inserted after it. */
  lemma {:induction false} LatestSampleIsNewest(samples: seq<SampleRow>, cradleId: Id)
    ensures LatestSample(samples, cradleId).Some? ==>
              exists i :: 0 <= i < |samples| && samples[i] == LatestSample(samples, cradleId).value
                          && forall j :: i < j < |samples| ==> samples[j].cradleId != cradleId
  {
    if |samples| > 0 {
      var init := samples[..|samples| - 1];
      var last := samples[|samples| - 1];
      assert samples == init + [last];
      SamplesOfAppend(init, last, cradleId);
      if last.cradleId == cradleId {
        assert LatestSample(samples, cradleId).value == last;
      } else {
        assert LatestSample(samples, cradleId) == LatestSample(init, cradleId);
        LatestSampleIsNewest(init, cradleId);
        if LatestSample(init, cradleId).Some? {
          var i :| 0 <= i < |init| && init[i] == LatestSample(init, cradleId).value
                   && forall j :: i < j < |init| ==> init[j].cradleId != cradleId;
          assert samples[i] == init[i];
          assert forall j :: i < j < |samples| ==> samples[j].cradleId != cradleId by {
            forall j | i < j < |samples|
              ensures samples[j].cradleId != cradleId
            {
              if j < |init| { assert samples[j] == init[j]; }
            }
          }
        }
      }
    }
  }

  /** Filtering by cradle distributes over concatenation. */
  lemma {:induction false} SamplesOfConcat(a: seq<SampleRow>, b: seq<SampleRow>, cradleId: Id)
    ensures SamplesOf(a + b, cradleId) == SamplesOf(a, cradleId) + SamplesOf(b, cradleId)
    decreases |b|
  {
    if |b| > 0 {
      var init := b[..|b| - 1];
      var x := b[|b| - 1];
      assert a + b == (a + init) + [x];
      assert b == init + [x];
      SamplesOfConcat(a, init, cradleId);
      SamplesOfAppend(a + init, x, cradleId);
      SamplesOfAppend(init, x, cradleId);
    } else {
      assert a + b == a;
    }
  }

  /** `SELECT ... FROM cradles WHERE id = $1`, destructured as `const [cradle] = rows`. */
  function FindCradle(cradles: seq<Cradle>, id: Id): (r: Option<Cradle>)
    ensures r.None? <==> forall k :: 0 <= k < |cradles| ==> cradles[k].id != id
    ensures r.Some? ==> exists k :: 0 <= k < |cradles| && cradles[k] == r.value && r.value.id == id
                                    && forall j :: 0 <= j < k ==> cradles[j].id != id
  {
    if |cradles| == 0 then None
    else if cradles[0].id == id then Some(cradles[0])
    else
      var rest := FindCradle(cradles[1..], id);
      if rest.Some? then
        ghost var k :| 0 <= k < |cradles[1..]| && cradles[1..][k] == rest.value && rest.value.id == id
                       && forall j :: 0 <= j < k ==> cradles[1..][j].id != id;
        assert cradles[k + 1] == rest.value;
        rest
      else rest
  }

  /** `SELECT ... FROM cradles WHERE device_key = $1`, first row. */
  function FindByDeviceKey(cradles: seq<Cradle>, key: string): (r: Option<Cradle>)
    ensures r.None? <==> forall k :: 0 <= k < |cradles| ==> cradles[k].deviceKey != key
    ensures r.Some? ==> exists k :: 0 <= k < |cradles| && cradles[k] == r.value && r.value.deviceKey == key
                                    && forall j :: 0 <= j < k ==> cradles[j].deviceKey != key
  {
    if |cradles| == 0 then None
    else if cradles[0].deviceKey == key then Some(cradles[0])
    else
      var rest := FindByDeviceKey(cradles[1..], key);
      if rest.Some? then
        ghost var k :| 0 <= k < |cradles[1..]| && cradles[1..][k] == rest.value && rest.value.deviceKey == key
                       && forall j :: 0 <= j < k ==> cradles[1..][j].deviceKey != key;
        assert cradles[k + 1] == rest.value;
        rest
      else rest
  }
}

=== FILE: text.dfy ===
/** The few string operations the JavaScript code relies on: decimal rendering of
    integers (template literals), `Array.prototype.join(" ")` and `toLowerCase`. */
module Text {
  import opened Wrappers

  predicate IsDigit(c: char) {
    '0' <= c <= '9'
  }

  function DigitChar(d: nat): (c: char)
    requires d < 10
    ensures IsDigit(c)
  {
    (('0' as int) + d) as char
  }

  function DigitValue(c: char): (d: nat)
    requires IsDigit(c)
    ensures d < 10
  {
    (c as int) - ('0' as int)
  }

  /** Decimal rendering of a non-negative integer, without leading zeros. */
  function NatToString(n: nat): (s: string)
    ensures 1 <= |s|
    ensures forall i :: 0 <= i < |s| ==> IsDigit(s[i])
    ensures s[0] == '0' ==> n == 0
    decreases n
  {
    if n < 10 then [DigitChar(n)] else NatToString(n / 10) + [DigitChar(n % 10)]
  }

  /** Reads a string of decimal digits back as a number. */
  function ParseNat(s: string): nat
    requires forall i :: 0 <= i < |s| ==> IsDigit(s[i])
  {
    if |s| == 0 then 0 else ParseNat(s[..|s| - 1]) * 10 + DigitValue(s[|s| - 1])
  }

  /** Rendering loses nothing: the digits read back as the number rendered. */
  lemma {:induction false} ParseNatToString(n: nat)
    ensures ParseNat(NatToString(n)) == n
  {
    var s := NatToString(n);
    if n >= 10 {
      ParseNatToString(n / 10);
      assert s[..|s| - 1] == NatToString(n / 10);
    }
  }

  /** Two numbers render the same only if they are equal. */
  lemma NatToStringInjective(a: nat, b: nat)
    requires NatToString(a) == NatToString(b)
    ensures a == b
  {
    ParseNatToString(a);
    ParseNatToString(b);
  }

  /** Decimal rendering of any integer, with a leading `-` for negatives (JavaScript `String(n)`). */
  function IntToString(i: int): (s: string)
    ensures 1 <= |s|
    ensures i < 0 <==> s[0] == '-'
  {
    if i < 0 then "-" + NatToString(-i) else NatToString(i)
  }

  /** `parts.join(" ")`. */
  function JoinSpace(parts: seq<string>): (s: string)
    ensures |parts| == 0 ==> s == ""
    ensures |parts| == 1 ==> s == parts[0]
  {
    if |parts| == 0 then ""
    else if |parts| == 1 then parts[0]
    else parts[0] + " " + JoinSpace(parts[1..])
  }

  function LowerChar(c: char): (l: char)
    ensures !('A' <= l <= 'Z')
  {
    if 'A' <= c <= 'Z' then ((c as int) + 32) as char else c
  }

  /** `toLowerCase` restricted to ASCII letters. */
  function ToLower(s: string): (r: string)
    ensures |r| == |s|
    ensures forall i :: 0 <= i < |s| ==> r[i] == LowerChar(s[i])
  {
    seq(|s|, i requires 0 <= i < |s| => LowerChar(s[i]))
  }

  /** JavaScript truthiness of an optional string: `null`, `undefined` and `""` are falsy. */
  predicate Truthy(s: Option<string>) {
    s.Some? && s.value != ""
  }


  /** `s || fallback` for an optional string. */
  function OrElse(s: Option<string>, fallback: string): (r: string)
    ensures Truthy(s) ==> r == s.value
    ensures !Truthy(s) ==> r == fallback
  {
    if Truthy(s) then s.value else fallback
  }

  /** The UTF-16 code units of one character: two for a character outside the Basic
      Multilingual Plane (a surrogate pair), one otherwise. */
  function CodeUnits(c: char): nat {
    if c as int >= 0x1_0000 then 2 else 1
  }

  /** JavaScript's `String.prototype.length`, which counts UTF-16 code units; the browser's
      `minLength` and `maxLength` count the same way. */
  function JsLength(s: string): (n: nat)
    ensures |s| <= n <= 2 * |s|
    ensures (forall k :: 0 <= k < |s| ==> s[k] as int < 0x1_0000) ==> n == |s|
  {
    if |s| == 0 then 0 else CodeUnits(s[0]) + JsLength(s[1..])
  }

  lemma {:induction false} JsLengthConcat(a: string, b: string)
    ensures JsLength(a + b) == JsLength(a) + JsLength(b)
    decreases |a|
  {
    if |a| > 0 {
      assert (a + b)[1..] == a[1..] + b;
      JsLengthConcat(a[1..], b);
    } else {
      assert a + b == b;
    }
  }

  /** What `maxLength={max}` lets into an input: the longest prefix of whole characters that
      fits in `max` code units. */
  function JsTruncate(s: string, max: nat): (r: string)
    ensures |r| <= |s| && r == s[..|r|]
    ensures JsLength(r) <= max
    ensures |r| < |s| ==> JsLength(s[..|r| + 1]) > max
    decreases |s|
  {
    if |s| == 0 || CodeUnits(s[0]) > max then
      assert |s| > 0 ==> JsLength(s[..1]) == CodeUnits(s[0]) by {
        if |s| > 0 { assert s[..1][1..] == []; }
      }
      ""
    else
      var rest := JsTruncate(s[1..], max - CodeUnits(s[0]));
      var r := [s[0]] + rest;
      assert r[1..] == rest;
      assert s[..|r|] == [s[0]] + s[1..][..|rest|];
      assert |r| < |s| ==> JsLength(s[..|r| + 1]) > max by {
        if |r| < |s| {
          assert s[..|r| + 1][1..] == s[1..][..|rest| + 1];
        }
      }
      r
  }
}

=== FILE: wrappers.dfy ===
/** Optional values: a JavaScript `null`/`undefined` field, or a query that found no row. */
module Wrappers {

  datatype Option<+T> = None | Some(value: T) {

    /** Returns the wrapped value, or `default` when there is none. */
    function GetOr(default: T): T {
      match this
      case Some(v) => v
      case None => default
    }
  }
}
